=== FILE: README.md ===
# RavenVTT dice roller and character-sheet calculations in Dafny

This project models two parts of RavenVTT, a desktop character-sheet and
map editor for tabletop role-playing games.

**The dice-expression evaluator** (`utils/dice_roller.py`).
- `roll(dice_string)` splits a string such as `1d20A + 4d6kh3 + 5` on `+`.
- It hands each piece to `parse_and_roll`. That function strips the piece and matches `(\d+)d(\d+)(.*)` case-insensitively at its start, or else accepts a bare number.
- It rolls the dice with `roll_dice` and applies the first rule the lower-cased rest of the piece selects: advantage (`a`), disadvantage (`d`), keep highest (`kh`), keep lowest (`kl`) or a plain sum.
- It returns a record of `component`, `rolls`, `total` and `text`, or `None`.
- `roll` keeps the records of the pieces that are not dropped and adds up their totals.

**The derived statistics of the character editor** (`ui/character_editor_window.py`).
- `_update_all_calculations` computes the proficiency bonus `ceil(level/4)+1` and each ability modifier `floor((score-10)/2)`, and writes them as signed text.
- It copies the dexterity modifier's text into initiative.
- It computes every saving throw and every one of the 18 skills by reading a modifier back from its text with `int`, adding the bonus when the box is checked.
- The level spin box (minimum 1, maximum 99) and the ability spin boxes (1 to 30) bound the inputs. `_connect_signals` makes every change of an input recompute the sheet.

The files:

- `py_text.dfy` (module `PyText`) models the Python string operations the code relies on:
  - `str.strip`, `str.split` and `str.join`;
  - `str.isdigit`, `int`, `str` of an integer and `str.lower`;
  - one-character `str.replace`;
  - list rendering such as `[3, 5]`.
- `py_list.dfy` (module `PyList`) models `sum`, slicing `xs[:n]`, and sorting ascending or descending.
- `dice_roller.dfy` (module `DiceRoller`) has the pieces of the evaluator:
  - `RollDice`, `MatchDice`, `SelectRule`, `KeepCount` and the per-rule records;
  - the specification functions `Evaluate` (one piece) and `EvaluatePieces`/`RollSpec` (a whole string);
  - the methods `ParseAndRoll` and `Roll`, which follow the source statement by statement and are proved equal to those functions.
- `dice_properties.dfy` (module `DiceProperties`) proves what each rule yields, the precedence of the rules, and how `roll` composes over `+`.
- `character_sheet.dfy` (module `CharacterSheet`) has two parts:
  - the formulas and the skill table as functions;
  - the editor as a class whose fields are the inputs and the read-only fields. Its methods are the input changes and `_update_all_calculations`, which keep every field equal to what the inputs determine.

Randomness is a parameter. `rng(k, s)` is the value that the `k`-th call of `random.randint(1, s)` in one evaluation returns. Every piece carries the number of the next call, so the model fixes which face each die gets. Where a property needs the faces to lie in `[1, s]`, it assumes the predicate `Fair(rng)`.

Two behaviours of the code are worth stating outright.
- A piece such as `1d0` reaches `random.randint(1, 0)` at `utils/dice_roller.py:7`, which raises `ValueError`. Nothing catches it, so it ends `roll`. The model propagates it as `Raised(EmptyRange(0))`.
- `roll_dice` runs (line 27) before the advantage branch tests the count (line 34). So a dropped `2d20a` still uses two values of the random source, and the model counts those calls.

## Model

| member | source | states |
|---|---|---|
| DiceRoller.RollDice | utils/dice_roller.py:5-7 | `count` faces, the i-th being call `pos + i` of `randint(1, sides)`, each in `[1, sides]` for a fair source; raises exactly when `count >= 1` and `sides == 0` |
| DiceRoller.MatchDice | utils/dice_roller.py:15-24 | a match starts with a digit and its third group holds no newline |
| DiceRoller.LineRest | utils/dice_roller.py:15 | `.*` takes the longest newline-free prefix: it stops at the first newline or at the end |
| DiceRoller.SelectRule | utils/dice_roller.py:33-67 | each of the five rules is chosen exactly when its test succeeds and every earlier test fails (`a`, then `d`, then `kh`, then `kl`) |
| DiceRoller.FindKeep | utils/dice_roller.py:50 | `re.search(r'kh(\d+)')` finds the first position holding `k`, the tag and a digit, or reports that there is none |
| DiceRoller.KeepCountFirst | utils/dice_roller.py:50-52 | the keep count `KeepCount` is missing exactly when no `k<tag>` is followed by a digit; otherwise it is the number after the first such `k<tag>` |
| DiceRoller.Evaluate | utils/dice_roller.py:10-76 | `parse_and_roll` raises exactly when the stripped piece matches with a count of at least 1 and zero sides; a returned record's component is the stripped piece; the call counter never goes back |
| DiceRoller.EvaluateDice | utils/dice_roller.py:23-76 | a matched piece raises exactly when it has dice with zero sides; otherwise its record names the piece and the counter moves forward |
| DiceRoller.ParseAndRoll | utils/dice_roller.py:10-76 | the statement-by-statement method returns exactly what `Evaluate` specifies, error included |
| DiceRoller.ApplyModifier | utils/dice_roller.py:27-76 | the branches after `roll_dice`, updating the rolls, total and text parts in place, give exactly the step `EvaluateDice` specifies |
| DiceRoller.RollKeep | utils/dice_roller.py:49-64 | the keep branch (sort, slice, sum, append a second text part; total 0 and no second part when the search fails) yields exactly the keep-rule record `KeepRecord` |
| DiceRoller.RollPair | utils/dice_roller.py:33-46 | the advantage or disadvantage branch rolls one more die, as call `next`, and yields the pair record; the counter moves by one |
| DiceRoller.FlatValue | utils/dice_roller.py:18-20 | the record `FlatRecord` of a bare number has one "roll", equal to its total, which is what `int` reads from the piece |
| DiceRoller.PairTotal | utils/dice_roller.py:33-46 | the record `PairRecord` reports both faces; its total is one of them, the higher for advantage and the lower for disadvantage |
| DiceRoller.KeepTotals | utils/dice_roller.py:49-64 | the record `KeepRecord` reports the faces as rolled; its total is 0 without a keep count or with a count of 0, and the sum of all faces when the count reaches their number |
| DiceRoller.RuleOutcome | utils/dice_roller.py:33-69 | `ApplyRule` drops the piece exactly for advantage or disadvantage with other than one die; those two rules otherwise use one more call and report two faces; the other rules report the faces as rolled; a kept record names the piece |
| DiceRoller.EvaluatePieces | utils/dice_roller.py:85-89 | evaluating the first `n` pieces yields at most `n` records |
| DiceRoller.RaisedPrefix | utils/dice_roller.py:85-86 | once a piece raises, the whole loop raises that error |
| DiceRoller.RollComponents | utils/dice_roller.py:82-91 | the accumulating loop returns the specified outcome: the first error raised, or the records of the accepted pieces in order with their summed totals |
| DiceRoller.Roll | utils/dice_roller.py:79-91 | `roll` returns `RollSpec` for the piece evaluator `parse_and_roll`, and its grand total is the sum of the returned totals |
| DiceRoller.SumTotalsAppend | utils/dice_roller.py:88-89 | appending a record adds its total to the grand total |
| DiceRoller.RollSpecTotals | utils/dice_roller.py:83-91 | a `RollSpec` that raises nothing reports at most one record per `+`-separated piece, and its grand total is `SumTotals` of the records |
| DiceProperties.MatchDiceOf | utils/dice_roller.py:15 | `<digits>d<digits><tail>` (either case of `d`, tail not starting with a digit) matches with the two values and the tail up to its first newline |
| DiceProperties.MatchDiceShape | utils/dice_roller.py:15 | conversely, every match comes from text of that shape |
| DiceProperties.DigitPrefixOf | utils/dice_roller.py:15 | the greedy `\d+` takes exactly the leading numeral when a non-digit follows |
| DiceProperties.FlatNumber | utils/dice_roller.py:15-20 | an all-digits piece yields `rolls == [val]`, `total == val`, text `"<piece> = <val>"`, and rolls nothing |
| DiceProperties.FlatNumeral | utils/dice_roller.py:12-20 | `str(n)`, with any whitespace around it, evaluates to `n` |
| DiceProperties.UnparsedDropped | utils/dice_roller.py:15-21 | a piece that neither matches nor is all digits is dropped without rolling |
| DiceProperties.NoLeadingDigitDropped | utils/dice_roller.py:15-21 | a stripped piece that does not start with a digit is dropped without rolling |
| DiceProperties.DiceMatched | utils/dice_roller.py:15-25 | a matching piece is evaluated as dice of that match |
| DiceProperties.DiceRolled | utils/dice_roller.py:27-76 | dice that do not raise are rolled from call `pos`, and the selected rule is applied to those faces |
| DiceProperties.ZeroSidesRaise | utils/dice_roller.py:27 | one or more dice with zero sides raise `EmptyRange(0)`, whatever the modifier |
| DiceProperties.ZeroDice | utils/dice_roller.py:27-69 | zero dice never raise and roll nothing; advantage and disadvantage drop the piece; the other rules give no rolls and a total of 0 |
| DiceProperties.PlainSumPiece | utils/dice_roller.py:66-69 | with no rule selected: `count` rolls in the order rolled, each in `[1, sides]` for a fair source; total their sum, in `[count, count*sides]`; text `"<piece>: [r1, ...] -> <total>"` |
| DiceProperties.NoModifierSummed | utils/dice_roller.py:66-69 | a dice piece with nothing after its sides is summed, with its rolls and total in range |
| DiceProperties.PlainDice | utils/dice_roller.py:10-69 | `"<count>d<sides>"` gives `count` rolls in `[1, sides]` and a total in `[count, count*sides]` |
| DiceProperties.PlainDiceMatch | utils/dice_roller.py:12-25 | `"<count>d<sides>"` matches with its two numbers and an empty modifier |
| DiceProperties.NumeralDiceMatch | utils/dice_roller.py:12-25 | any two numerals around `d` match with their values and an empty modifier |
| DiceProperties.NumeralDiceTrimmed | utils/dice_roller.py:12 | `strip` leaves `<numeral>d<numeral>` unchanged |
| DiceProperties.TwoDiceSummed | utils/dice_roller.py:66-69 | two summed dice report both faces in the order rolled and their sum |
| DiceProperties.StripTwoD6MinusThree | utils/dice_roller.py:12 | `strip` leaves `"2d6 - 3"` unchanged |
| DiceProperties.MatchTwoD6MinusThree | utils/dice_roller.py:15-25 | `"2d6 - 3"` matches as two six-sided dice with the modifier `" - 3"` |
| DiceProperties.UnknownSuffixSummed | utils/dice_roller.py:66-69 | `"2d6 - 3"` falls through to the plain sum: two dice added, `- 3` ignored |
| DiceProperties.MinusThreeSummed | utils/dice_roller.py:33-67 | the modifier `" - 3"` selects no rule |
| DiceProperties.AdvantageOrDisadvantage | utils/dice_roller.py:33-46 | with a count other than 1 the piece is dropped after its dice are rolled; with a count of 1 a second die is rolled, both faces are reported, and the total is the higher (lower) face, with text `"<piece>: [r1, r2] -> <total>"` |
| DiceProperties.PairDice | utils/dice_roller.py:33-46 | the same, for a piece already matched |
| DiceProperties.StripTwoD6Kh3a | utils/dice_roller.py:12 | `strip` leaves `"2d6kh3a"` unchanged |
| DiceProperties.MatchTwoD6Kh3a | utils/dice_roller.py:15-25 | `"2d6kh3a"` matches as two six-sided dice with the modifier `"kh3a"` |
| DiceProperties.Kh3aAdvantage | utils/dice_roller.py:33 | `"kh3a"` selects advantage |
| DiceProperties.AdvantageBeforeKeep | utils/dice_roller.py:33-49 | precedence: `"2d6kh3a"` is dropped because `a` wins and the count is 2, after two dice were rolled |
| DiceProperties.KeepWithCount | utils/dice_roller.py:49-64 | for `khN`/`klN`: rolls in the original order; `min(N, count)` faces kept, each at least (most) as high as every face left out; total their sum, the sum of all rolls when `N >= count` and 0 when `N == 0`; the exact `-> Kept` text |
| DiceProperties.KeptFaces | utils/dice_roller.py:53-55 | the first `n` faces after sorting are a sub-multiset of the faces, as extreme as every face left out, with the sums above |
| DiceProperties.KeepWithoutCount | utils/dice_roller.py:49-64 | `kh`/`kl` without digits keeps the piece with its faces in the order rolled, a total of 0 and no `->` part |
| DiceProperties.SumTotalsConcat | utils/dice_roller.py:89 | the grand total of two runs of records is the sum of theirs |
| DiceProperties.EvaluatePiecesPrefix | utils/dice_roller.py:85-89 | the loop over a prefix does not depend on what follows |
| DiceProperties.EvaluatePiecesAppend | utils/dice_roller.py:85-89 | the loop over `p1 + p2` is the loop over `p1`, then over `p2` from where the random source was left, with the records concatenated |
| DiceProperties.PiecesConcat | utils/dice_roller.py:85-89 | when neither part raises, the records of `p1 + p2` are those of `p1` then `p2` |
| DiceProperties.PiecesRaised | utils/dice_roller.py:85-89 | an error in `p1` is the error of `p1 + p2` |
| DiceProperties.SplitAtPlus | utils/dice_roller.py:81 | the pieces of `a + "+" + b` are those of `a` followed by those of `b` |
| DiceProperties.RollConcat | utils/dice_roller.py:79-91 | `roll(a + "+" + b)` reports the records of `a` then those of `b`, whose dice follow those of `a`, with the sum of the two grand totals |
| DiceProperties.RollConcatRaised | utils/dice_roller.py:79-91 | an error raised in `a` is raised by `roll(a + "+" + b)` |
| DiceProperties.AllDropped | utils/dice_roller.py:85-89 | pieces that are all dropped without rolling give no records |
| DiceProperties.RollNothing | utils/dice_roller.py:79-91 | a string none of whose pieces starts with a digit gives `([], 0)` |
| DiceProperties.RollSingleDropped | utils/dice_roller.py:79-91 | a trimmed string without `+` that does not start with a digit gives `([], 0)` |
| DiceProperties.RollEmpty | utils/dice_roller.py:79-91 | `roll("")` gives `([], 0)` |
| DiceProperties.RollWithoutCount | utils/dice_roller.py:79-91 | `roll("d20")` gives `([], 0)` |
| DiceProperties.RollNegative | utils/dice_roller.py:79-91 | `roll("-5")` gives `([], 0)` |
| PyText.Strip | utils/dice_roller.py:12 | the result is empty exactly when the text is all whitespace, and otherwise begins and ends with a non-space |
| PyText.StripPadded | utils/dice_roller.py:12 | stripping whitespace-padded trimmed text gives that text |
| PyText.StripTrimmed | utils/dice_roller.py:12 | text that neither begins nor ends with whitespace is left unchanged by `strip` |
| PyText.Split | utils/dice_roller.py:81 | `split('+')` gives at least one piece, and no piece holds the separator |
| PyText.SplitCount | utils/dice_roller.py:81 | there is one piece more than there are separators |
| PyText.JoinSplit | utils/dice_roller.py:81 | joining the pieces with the separator gives the text back |
| PyText.SplitJoin | utils/dice_roller.py:81 | splitting a join of separator-free pieces gives the pieces back |
| PyText.SplitAppend | utils/dice_roller.py:81 | splitting `a + sep + b` gives the pieces of `a` then those of `b` |
| PyText.SplitFree | utils/dice_roller.py:81 | text without the separator is one piece |
| PyText.JoinConcat | utils/dice_roller.py:75 | `sep.join` of two non-empty runs of parts is the two joins with `sep` between them |
| PyText.DigitPrefixLength | utils/dice_roller.py:15 | the greedy `\d+` run: all digits, followed by a non-digit or the end |
| PyText.DigitsValueLeadingZero | utils/dice_roller.py:24 | `DigitsValue`, the value `int` gives a run of digits, is unchanged by a leading zero |
| PyText.NatToStringValue | utils/dice_roller.py:20 | `str(n)` (`NatToString`) is a numeral without leading zeros that `int` reads back as `n` |
| PyText.NatToStringOfDigits | utils/dice_roller.py:18-20 | a numeral without leading zeros is `str` of its value |
| PyText.IntToStringShape | utils/dice_roller.py:69 | `str(n)` (`IntToString`) starts with `-` exactly when `n` is negative, and the rest is digits |
| PyText.ParseInt | ui/character_editor_window.py:267 | on text made only of an optional sign and ASCII digits, `int` gives the signed value of the digits; it gives `None` on all other text |
| PyText.ParseIntToString | ui/character_editor_window.py:267 | `int(str(n)) == n` |
| PyText.ReplaceChar | ui/character_editor_window.py:168 | same length; every `from` becomes `to`, so none is left when the two differ; every other character kept |
| PyText.ReplaceCharAbsent | ui/character_editor_window.py:272 | replacing a character that does not occur changes nothing |
| PyText.LowerChars | utils/dice_roller.py:25 | `lower()` keeps the length, turns `A`-`Z` into `a`-`z` and the Kelvin sign into `k`, keeps every other character, and leaves no capital or Kelvin sign |
| PyText.ListReprPair | utils/dice_roller.py:39 | `str([x, y])` is `"[x, y]"` |
| PyText.ListReprEmpty | utils/dice_roller.py:30 | `str([])` is `"[]"` |
| PyText.ListReprOne | utils/dice_roller.py:30 | `str([x])` is `"[x]"` |
| PyText.ListReprCons | utils/dice_roller.py:30 | `str([x] + xs)` for non-empty `xs` is `"[x, "` followed by `str(xs)` without its opening bracket; with the two rows above this fixes `str` of a list at every length |
| PyList.SumWithin | utils/dice_roller.py:68 | the sum of `n` values in `[lo, hi]` lies in `[n*lo, n*hi]` |
| PyList.SumAppend | utils/dice_roller.py:55 | `sum` (`Sum`) of a concatenation is the sum of the sums |
| PyList.SumPair | utils/dice_roller.py:68 | `sum([x, y]) == x + y` |
| PyList.Take | utils/dice_roller.py:54 | `xs[:n]` is the prefix of `xs` with `min(n, len(xs))` elements |
| PyList.Sort | utils/dice_roller.py:53 | `sort()`/`sort(reverse=True)` gives a sorted permutation with the same sum |
| PyList.Insert | utils/dice_roller.py:53 | insertion into a sorted list keeps it sorted and adds exactly the one element |
| PyList.KeptAreExtreme | utils/dice_roller.py:53-54 | the first `n` of the sorted faces are each at least (most) as high as every face after them |
| PyList.SortedSplit | utils/dice_roller.py:53-54 | every element of a sorted list's prefix is in order with every element of its suffix |
| CharacterSheet.Clamp | ui/character_editor_window.py:125 | a spin box holds its value within its range: unchanged when already inside, otherwise the nearest bound |
| CharacterSheet.ProficiencyBonus | ui/character_editor_window.py:253 | the bonus `b` is the least with `level <= 4*(b-1)`, that is `ceil(level/4)+1` |
| CharacterSheet.ProficiencyBonusRange | ui/character_editor_window.py:99 | for levels 1 to 99 the bonus lies in `[2, 26]` |
| CharacterSheet.ProficiencyBonusMonotone | ui/character_editor_window.py:253 | the bonus never decreases with level, and rises by at most one per level |
| CharacterSheet.AbilityModifier | ui/character_editor_window.py:258 | the modifier `m` satisfies `2m <= score-10 < 2m+2`, that is `floor((score-10)/2)` |
| CharacterSheet.AbilityModifierRange | ui/character_editor_window.py:125 | for scores 1 to 30 the modifier lies in `[-5, 10]` |
| CharacterSheet.AbilityModifierMonotone | ui/character_editor_window.py:258 | the modifier never decreases with the score |
| CharacterSheet.SignedReadsBack | ui/character_editor_window.py:259 | the signed text `Signed(n)` is `+` or `-` followed by digits, and `int` reads it back as the number |
| CharacterSheet.Total | ui/character_editor_window.py:268 | a total exceeds the modifier by the bonus when checked, and by nothing otherwise |
| CharacterSheet.ModifierTexts | ui/character_editor_window.py:256-259 | one modifier field per ability score |
| CharacterSheet.SaveTexts | ui/character_editor_window.py:266-269 | one saving throw field per saving throw box |
| CharacterSheet.SkillTexts | ui/character_editor_window.py:271-275 | one skill field per skill box |
| CharacterSheet.ModifierTextReadsBack | ui/character_editor_window.py:259 | a modifier field reads back as `floor((score-10)/2)` |
| CharacterSheet.SaveTextReadsBack | ui/character_editor_window.py:266-269 | a saving throw field reads back as `mod + prof_bonus` when checked, `mod` otherwise |
| CharacterSheet.SkillTextReadsBack | ui/character_editor_window.py:271-275 | a skill field reads back as its ability's modifier, plus `prof_bonus` only when checked |
| CharacterSheet.SaveProficiencyAddsBonus | ui/character_editor_window.py:268 | checking a saving throw raises its total by exactly the bonus |
| CharacterSheet.SkillProficiencyAddsBonus | ui/character_editor_window.py:274 | checking a skill raises its total by exactly the bonus |
| CharacterSheet.SkillsTable | ui/character_editor_window.py:264 | the table has exactly the 18 listed skills, no key twice, and each maps to one of the six abilities |
| CharacterSheet.SkillKeysFromLabels | ui/character_editor_window.py:164-168 | the keys the skill boxes are stored under are the table's keys: each label lower-cased with spaces turned into underscores; the abbreviation shown is the first three letters of the table's ability |
| CharacterSheet.LabelKeysFirst | ui/character_editor_window.py:168 | the keys of the first six skill labels |
| CharacterSheet.LabelKeysSecond | ui/character_editor_window.py:168 | the keys of the next six skill labels |
| CharacterSheet.LabelKeysThird | ui/character_editor_window.py:168 | the keys of the last six skill labels, among them `sleight_of_hand` |
| CharacterSheet.SkillKey | ui/character_editor_window.py:168 | a skill key holds no space |
| CharacterSheet.SkillKeysUnderscored | ui/character_editor_window.py:272 | no key holds a space, so `replace(" ", "_")` before the lookup leaves it unchanged |
| CharacterSheet.SheetCovered | ui/character_editor_window.py:261-275 | the editor's inputs provide a dexterity score, a score for every saving throw, and a table entry with a score for every skill, so no lookup fails |
| CharacterSheet.SheetScore | ui/character_editor_window.py:125 | an in-range score keeps the inputs well-formed |
| CharacterSheet.SheetSave | ui/character_editor_window.py:152-156 | toggling a saving throw box keeps the inputs well-formed |
| CharacterSheet.SheetSkill | ui/character_editor_window.py:164-170 | toggling a skill box keeps the inputs well-formed |
| CharacterSheet.CharacterEditor.InputsValid | ui/character_editor_window.py:261-275 | the same, for the editor's fields |
| CharacterSheet.CharacterEditor.constructor | ui/character_editor_window.py:17-58 | the level and every score start at 1, every box is unchecked, and after `_update_all_calculations` every read-only field shows what the inputs determine |
| CharacterSheet.CharacterEditor.SetLevel | ui/character_editor_window.py:99 | the level becomes the value clamped to `[1, 99]`, and the fields still show what the inputs determine |
| CharacterSheet.CharacterEditor.LevelChanged | ui/character_editor_window.py:242 | a level change recomputes every field |
| CharacterSheet.CharacterEditor.SetScore | ui/character_editor_window.py:125 | the score becomes the value clamped to `[1, 30]`, the other scores are kept, and the fields still show what the inputs determine |
| CharacterSheet.CharacterEditor.ScoreChanged | ui/character_editor_window.py:243-244 | a score change recomputes every field |
| CharacterSheet.CharacterEditor.SetSaveProficient | ui/character_editor_window.py:245-246 | the saving throw box takes the new state, the others keep theirs, and the fields still show what the inputs determine |
| CharacterSheet.CharacterEditor.SaveToggled | ui/character_editor_window.py:245-246 | a saving throw toggle recomputes every field |
| CharacterSheet.CharacterEditor.SetSkillProficient | ui/character_editor_window.py:247-248 | the skill box takes the new state, the others keep theirs, and the fields still show what the inputs determine |
| CharacterSheet.CharacterEditor.SkillToggled | ui/character_editor_window.py:247-248 | a skill toggle recomputes every field |
| CharacterSheet.CharacterEditor.UpdateAllCalculations | ui/character_editor_window.py:251-275 | afterwards every read-only field shows what the inputs determine, and the inputs are unchanged |
| CharacterSheet.CharacterEditor.Calculate | ui/character_editor_window.py:251-275 | the bonus text is `"+<bonus>"`; the modifier, saving throw and skill fields equal their specifications; initiative is exactly the dexterity modifier's text |
| CharacterSheet.CharacterEditor.WriteModifiers | ui/character_editor_window.py:256-259 | the loop writes every modifier field, whatever the order of the dictionary |
| CharacterSheet.CharacterEditor.ReadModifier | ui/character_editor_window.py:267 | `int` of a modifier field is that ability's modifier |
| CharacterSheet.CharacterEditor.WriteSaves | ui/character_editor_window.py:266-269 | the loop writes every saving throw field, whatever the order of the dictionary |
| CharacterSheet.CharacterEditor.WriteSkills | ui/character_editor_window.py:271-275 | the loop writes every skill field, whatever the order of the dictionary |

## Left out

- Widget construction, layouts, menus, dialogs, the sprite upload (`_upload_sprite`), the class combo box with `_on_class_changed` and `_apply_class_proficiencies`, class-data loading, and JSON save and load (`_gather_character_data`, `_populate_sheet_from_data`, `_save_character_as`, `_load_character`). They are Qt plumbing and file I/O. The editor keeps only the values of the widgets `_update_all_calculations` reads and writes.
- The modules `main.py`, `utils/security.py` and the other windows and dialogs under `ui/`. They are outside the two cores; `utils/security.py` is a foreign call into the Fernet library.
- Python's global random generator. It is replaced by the parameter `rng`, a function from call number and side count to face; fairness and uniformity are not modelled.
- Unicode digits for `\d`, `str.isdigit` and `int`. Only ASCII `0`-`9` count as digits.
- `str.lower`: only ASCII `A`-`Z` and the Kelvin sign (which lowers to `k`) are lowered. No other character lowers to a letter the rules test or to a digit, so the selected rule and keep count do not change.
- Python's limit on the number of digits `int()` converts, and running out of memory for huge dice counts. Counts and sides are unbounded naturals.
- `math.ceil(level / 4)` and `math.floor((score - 10) / 2)` go through floating point in the source. The model uses exact integer arithmetic, which agrees for every level and score the spin boxes allow.
- Dictionary iteration order. The loops of `_update_all_calculations` are modelled as visiting the keys in an arbitrary order, and the results are proved for every order.
- CharacterSheet.CharacterEditor.WriteSaves: the labels are set one per pass in the source. The model builds the new texts in a local map and assigns the field once after the loop. The final state is the same; the partly written states in between are not modelled. The same holds for WriteSkills.
- PyText.ParseInt: Python's `int` also accepts surrounding whitespace and `_` between digits (`int(' 5 ')`, `int('1_0')`); the model gives `None` for those forms. The only texts read back are ones the editor itself wrote with a sign and digits, so the difference is never reached.
- `if result:` in `roll` is modelled as "the piece was not dropped", because a returned record is a non-empty dictionary and therefore truthy.
- CharacterSheet.CharacterEditor.SetLevel: the fields the call leaves alone are given only by the `modifies` clause, and are not restated in `ensures`. The same holds for SetScore, SetSaveProficient, SetSkillProficient and the four signal handlers.

=== FILE: character_sheet.dfy ===
/** The derived statistics of the character editor: the proficiency bonus,
    the six ability modifiers, initiative, saving throws and skills, written
    as signed text and recomputed from the level, the ability scores and the
    proficiency check boxes whenever one of them changes. */
module CharacterSheet {
  import opened PyText

  // ---------------------------------------------------------------------
  // The input ranges
  // ---------------------------------------------------------------------

  /** The level spin box: minimum 1, and the spin box's default maximum 99. */
  const MinLevel := 1
  const MaxLevel := 99

  /** The ability score spin boxes. */
  const MinScore := 1
  const MaxScore := 30

  /** What a spin box with range `[lo, hi]` holds after being given `v`. */
  function Clamp(v: int, lo: int, hi: int): (r: int)
    requires lo <= hi
    ensures lo <= r <= hi
    ensures lo <= v <= hi ==> r == v
    ensures v < lo ==> r == lo
    ensures v > hi ==> r == hi
  {
    if v < lo then lo else if v > hi then hi else v
  }

  // ---------------------------------------------------------------------
  // Abilities and skills
  // ---------------------------------------------------------------------

  /** The six abilities, keyed in lower case. */
  const Abilities: set<string> :=
    {"strength", "dexterity", "constitution", "intelligence", "wisdom", "charisma"}

  /** The skills as the editor lists them: the label and the abbreviation
      of the ability shown next to it. */
  const SkillLabels: seq<(string, string)> :=
    [("Acrobatics", "dex"), ("Animal Handling", "wis"), ("Arcana", "int"), ("Athletics", "str"),
     ("Deception", "cha"), ("History", "int"), ("Insight", "wis"), ("Intimidation", "cha"),
     ("Investigation", "int"), ("Medicine", "wis"), ("Nature", "int"), ("Perception", "wis"),
     ("Performance", "cha"), ("Persuasion", "cha"), ("Religion", "int"), ("Sleight of Hand", "dex"),
     ("Stealth", "dex"), ("Survival", "wis")]

  /** The key a skill is stored under: its label in lower case with spaces
      turned into underscores. */
  function SkillKey(name: string): (key: string)
    ensures ' ' !in key
  {
    ReplaceChar(Lower(name), ' ', '_')
  }

  /** The skill keys, in the order the editor lists the skills. */
  const SkillKeys: seq<string> :=
    ["acrobatics", "animal_handling", "arcana", "athletics", "deception", "history", "insight",
     "intimidation", "investigation", "medicine", "nature", "perception", "performance",
     "persuasion", "religion", "sleight_of_hand", "stealth", "survival"]

  /** The ability each skill is based on, as the calculation looks it up. */
  const SkillsMap: map<string, string> :=
    map["acrobatics" := "dexterity", "animal_handling" := "wisdom", "arcana" := "intelligence",
        "athletics" := "strength", "deception" := "charisma", "history" := "intelligence",
        "insight" := "wisdom", "intimidation" := "charisma", "investigation" := "intelligence",
        "medicine" := "wisdom", "nature" := "intelligence", "perception" := "wisdom",
        "performance" := "charisma", "persuasion" := "charisma", "religion" := "intelligence",
        "sleight_of_hand" := "dexterity", "stealth" := "dexterity", "survival" := "wisdom"]

  // ---------------------------------------------------------------------
  // The formulas
  // ---------------------------------------------------------------------

  /** `math.ceil(level / 4) + 1`: one more than the least whole number of
      fours that reaches the level. */
  function ProficiencyBonus(level: int): (bonus: int)
    ensures 4 * (bonus - 2) < level <= 4 * (bonus - 1)
  {
    (level + 3) / 4 + 1
  }

  /** `math.floor((score - 10) / 2)`. */
  function AbilityModifier(score: int): (modifier: int)
    ensures 2 * modifier <= score - 10 < 2 * modifier + 2
  {
    (score - 10) / 2
  }

  /** `f"+{n}" if n >= 0 else str(n)`: an explicit sign in front of the
      digits of the magnitude. */
  function Signed(n: int): string {
    (if n >= 0 then "+" else "-") + NatToString(if n >= 0 then n else -n)
  }

  /** A signed text is a sign followed by a numeral, and `int` reads it back
      as the number it was written from. */
  lemma SignedReadsBack(n: int)
    ensures Signed(n)[0] == (if n >= 0 then '+' else '-') && IsNumeral(Signed(n)[1..])
    ensures ParseInt(Signed(n)) == Some(n)
  {
    var digits := NatToString(if n >= 0 then n else -n);
    NatToStringValue(if n >= 0 then n else -n);
    assert Signed(n)[1..] == digits;
  }

  /** A save or skill total: the modifier, plus the proficiency bonus only
      when the box is checked. */
  function Total(modifier: int, bonus: int, proficient: bool): (total: int)
    ensures total - modifier == if proficient then bonus else 0
  {
    if proficient then modifier + bonus else modifier
  }

  // ---------------------------------------------------------------------
  // What the sheet shows
  // ---------------------------------------------------------------------

  /** The texts of the modifier fields. */
  function ModifierTexts(scores: map<string, int>): (texts: map<string, string>)
    ensures texts.Keys == scores.Keys
  {
    map a | a in scores :: Signed(AbilityModifier(scores[a]))
  }

  /** The texts of the saving throw fields. */
  function SaveTexts(level: int, scores: map<string, int>, proficient: map<string, bool>): (texts: map<string, string>)
    requires proficient.Keys <= scores.Keys
    ensures texts.Keys == proficient.Keys
  {
    map a | a in proficient :: Signed(Total(AbilityModifier(scores[a]), ProficiencyBonus(level), proficient[a]))
  }

  /** Every skill, with its spaces turned into underscores, has an entry in
      `table`, and the ability the entry names has a score. */
  predicate SkillsCovered(table: map<string, string>, scores: map<string, int>, proficient: map<string, bool>) {
    forall k :: k in proficient ==> ReplaceChar(k, ' ', '_') in table && table[ReplaceChar(k, ' ', '_')] in scores
  }

  /** The texts of the skill fields, each skill based on the ability
      `table` names for its key with spaces turned into underscores. */
  function SkillTexts(table: map<string, string>, level: int, scores: map<string, int>, proficient: map<string, bool>): (texts: map<string, string>)
    requires SkillsCovered(table, scores, proficient)
    ensures texts.Keys == proficient.Keys
  {
    map k | k in proficient ::
      Signed(Total(AbilityModifier(scores[table[ReplaceChar(k, ' ', '_')]]), ProficiencyBonus(level), proficient[k]))
  }

  /** A modifier field reads back as the modifier of its ability's score. */
  lemma ModifierTextReadsBack(scores: map<string, int>, a: string)
    requires a in scores
    ensures ParseInt(ModifierTexts(scores)[a]) == Some(AbilityModifier(scores[a]))
  {
    SignedReadsBack(AbilityModifier(scores[a]));
  }

  /** A saving throw field reads back as the ability's modifier, plus the
      proficiency bonus when its box is checked. */
  lemma SaveTextReadsBack(level: int, scores: map<string, int>, proficient: map<string, bool>, a: string)
    requires proficient.Keys <= scores.Keys && a in proficient
    ensures ParseInt(SaveTexts(level, scores, proficient)[a]) ==
              Some(Total(AbilityModifier(scores[a]), ProficiencyBonus(level), proficient[a]))
  {
    SignedReadsBack(Total(AbilityModifier(scores[a]), ProficiencyBonus(level), proficient[a]));
  }

  /** A skill field reads back as the modifier of the ability the table bases
      the skill on, plus the proficiency bonus when its box is checked. */
  lemma SkillTextReadsBack(table: map<string, string>, level: int, scores: map<string, int>,
                           proficient: map<string, bool>, k: string)
    requires SkillsCovered(table, scores, proficient)
    requires k in proficient
    ensures var base := table[ReplaceChar(k, ' ', '_')];
            ParseInt(SkillTexts(table, level, scores, proficient)[k]) ==
              Some(Total(AbilityModifier(scores[base]), ProficiencyBonus(level), proficient[k]))
  {
    SignedReadsBack(Total(AbilityModifier(scores[table[ReplaceChar(k, ' ', '_')]]), ProficiencyBonus(level), proficient[k]));
  }

  // ---------------------------------------------------------------------
  // Properties of the formulas and tables
  // ---------------------------------------------------------------------

  /** Within the level spin box's range the bonus runs from 2 to 26. */
  lemma ProficiencyBonusRange(level: int)
    requires MinLevel <= level <= MaxLevel
    ensures 2 <= ProficiencyBonus(level) <= 26
  {
  }

  /** The bonus never decreases as the level rises, and it rises by at most
      one from one level to the next. */
  lemma ProficiencyBonusMonotone(low: int, high: int)
    requires low <= high
    ensures ProficiencyBonus(low) <= ProficiencyBonus(high)
    ensures high == low + 1 ==> ProficiencyBonus(high) <= ProficiencyBonus(low) + 1
  {
  }

  /** Within the score spin boxes' range the modifier runs from -5 to 10. */
  lemma AbilityModifierRange(score: int)
    requires MinScore <= score <= MaxScore
    ensures -5 <= AbilityModifier(score) <= 10
  {
  }

  /** The modifier never decreases as the score rises. */
  lemma AbilityModifierMonotone(low: int, high: int)
    requires low <= high
    ensures AbilityModifier(low) <= AbilityModifier(high)
  {
  }

  /** Checking a saving throw's box raises its total by exactly the
      proficiency bonus. */
  lemma SaveProficiencyAddsBonus(level: int, scores: map<string, int>, proficient: map<string, bool>, a: string)
    requires proficient.Keys <= scores.Keys && a in proficient
    ensures var on := ParseInt(SaveTexts(level, scores, proficient[a := true])[a]);
            var off := ParseInt(SaveTexts(level, scores, proficient[a := false])[a]);
            on.Some? && off.Some? && on.value == off.value + ProficiencyBonus(level)
  {
    SaveTextReadsBack(level, scores, proficient[a := true], a);
    SaveTextReadsBack(level, scores, proficient[a := false], a);
  }

  /** Checking a skill's box raises its total by exactly the proficiency bonus. */
  lemma SkillProficiencyAddsBonus(table: map<string, string>, level: int, scores: map<string, int>,
                                  proficient: map<string, bool>, k: string)
    requires SkillsCovered(table, scores, proficient)
    requires k in proficient
    ensures var on := ParseInt(SkillTexts(table, level, scores, proficient[k := true])[k]);
            var off := ParseInt(SkillTexts(table, level, scores, proficient[k := false])[k]);
            on.Some? && off.Some? && on.value == off.value + ProficiencyBonus(level)
  {
    SkillTextReadsBack(table, level, scores, proficient[k := true], k);
    SkillTextReadsBack(table, level, scores, proficient[k := false], k);
  }

  /** The table has one entry for each of the 18 skills the editor lists,
      no skill twice, and each names one of the six abilities. */
  lemma SkillsTable()
    ensures |SkillKeys| == 18
    ensures forall i, j :: 0 <= i < j < |SkillKeys| ==> SkillKeys[i] != SkillKeys[j]
    ensures forall k :: k in SkillsMap <==> k in SkillKeys
    ensures forall k :: k in SkillsMap ==> SkillsMap[k] in Abilities
  {
  }

  /** The keys the skill fields are stored under are the table's keys, in
      the order listed: each label in lower case with its spaces turned into
      underscores.  The abbreviation shown beside each skill is the first
      three letters of the ability the table bases it on. */
  lemma SkillKeysFromLabels()
    ensures |SkillLabels| == |SkillKeys|
    ensures forall i :: 0 <= i < |SkillLabels| ==> SkillKey(SkillLabels[i].0) == SkillKeys[i]
    ensures forall i :: 0 <= i < |SkillLabels| ==> SkillLabels[i].1 == SkillsMap[SkillKeys[i]][..3]
  {
    LabelKeysFirst();
    LabelKeysSecond();
    LabelKeysThird();
  }

  lemma LabelKeysFirst()
    ensures SkillKey("Acrobatics") == "acrobatics"
    ensures SkillKey("Animal Handling") == "animal_handling"
    ensures SkillKey("Arcana") == "arcana"
    ensures SkillKey("Athletics") == "athletics"
    ensures SkillKey("Deception") == "deception"
    ensures SkillKey("History") == "history"
  {
    assert SkillKey("Acrobatics") == "acrobatics";
    assert SkillKey("Animal Handling") == "animal_handling";
    assert SkillKey("Arcana") == "arcana";
    assert SkillKey("Athletics") == "athletics";
    assert SkillKey("Deception") == "deception";
    assert SkillKey("History") == "history";
  }

  lemma LabelKeysSecond()
    ensures SkillKey("Insight") == "insight"
    ensures SkillKey("Intimidation") == "intimidation"
    ensures SkillKey("Investigation") == "investigation"
    ensures SkillKey("Medicine") == "medicine"
    ensures SkillKey("Nature") == "nature"
    ensures SkillKey("Perception") == "perception"
  {
    assert SkillKey("Insight") == "insight";
    assert SkillKey("Intimidation") == "intimidation";
    assert SkillKey("Investigation") == "investigation";
    assert SkillKey("Medicine") == "medicine";
    assert SkillKey("Nature") == "nature";
    assert SkillKey("Perception") == "perception";
  }

  lemma LabelKeysThird()
    ensures SkillKey("Performance") == "performance"
    ensures SkillKey("Persuasion") == "persuasion"
    ensures SkillKey("Religion") == "religion"
    ensures SkillKey("Sleight of Hand") == "sleight_of_hand"
    ensures SkillKey("Stealth") == "stealth"
    ensures SkillKey("Survival") == "survival"
  {
    assert SkillKey("Performance") == "performance";
    assert SkillKey("Persuasion") == "persuasion";
    assert SkillKey("Religion") == "religion";
    assert SkillKey("Sleight of Hand") == "sleight_of_hand";
    assert SkillKey("Stealth") == "stealth";
    assert SkillKey("Survival") == "survival";
  }

  /** No key of the table contains a space, so turning spaces into
      underscores before looking a key up leaves it as it is. */
  lemma SkillKeysUnderscored()
    ensures forall k :: k in SkillsMap ==> ' ' !in k && ReplaceChar(k, ' ', '_') == k
  {
    SkillsTable();
    SkillKeysFromLabels();
    forall k | k in SkillsMap
      ensures ' ' !in k && ReplaceChar(k, ' ', '_') == k
    {
      var i :| 0 <= i < |SkillKeys| && SkillKeys[i] == k;
      assert SkillKey(SkillLabels[i].0) == k;
      ReplaceCharAbsent(k, ' ', '_');
    }
  }

  /** The editor's spin boxes and check boxes: a score within its range
      for every ability, a saving throw box for every ability, and a box for
      every skill of the table. */
  ghost predicate Sheet(scores: map<string, int>, saves: map<string, bool>, skills: map<string, bool>) {
    && scores.Keys == Abilities
    && (forall a :: a in scores ==> MinScore <= scores[a] <= MaxScore)
    && saves.Keys == Abilities
    && skills.Keys == SkillsMap.Keys
  }

  /** What such a sheet offers the calculation: a dexterity score, a score
      for every saving throw, and for every skill an entry of the table
      whose ability has a score. */
  lemma SheetCovered(scores: map<string, int>, saves: map<string, bool>, skills: map<string, bool>)
    requires Sheet(scores, saves, skills)
    ensures "dexterity" in scores && saves.Keys <= scores.Keys
    ensures SkillsCovered(SkillsMap, scores, skills)
  {
    SkillsTable();
    SkillKeysUnderscored();
  }

  /** A new score within range, a new saving throw state or a new skill
      state keeps the sheet what it was. */
  lemma SheetScore(scores: map<string, int>, saves: map<string, bool>, skills: map<string, bool>, a: string, v: int)
    requires Sheet(scores, saves, skills) && a in scores && MinScore <= v <= MaxScore
    ensures Sheet(scores[a := v], saves, skills) && scores[a := v].Keys == scores.Keys
  {
  }

  lemma SheetSave(scores: map<string, int>, saves: map<string, bool>, skills: map<string, bool>, a: string, b: bool)
    requires Sheet(scores, saves, skills) && a in saves
    ensures Sheet(scores, saves[a := b], skills) && saves[a := b].Keys == saves.Keys
  {
  }

  lemma SheetSkill(scores: map<string, int>, saves: map<string, bool>, skills: map<string, bool>, k: string, b: bool)
    requires Sheet(scores, saves, skills) && k in skills
    ensures Sheet(scores, saves, skills[k := b]) && skills[k := b].Keys == skills.Keys
  {
  }

  // ---------------------------------------------------------------------
  // The editor
  // ---------------------------------------------------------------------

  /** One widget per key, each holding `v`. */
  function Filled<V>(keys: set<string>, v: V): (m: map<string, V>)
    ensures m.Keys == keys
    ensures forall k :: k in m ==> m[k] == v
  {
    map k | k in keys :: v
  }

  /** The editor's inputs (the level spin box, the ability score spin boxes
      and the proficiency check boxes) and the read-only fields it fills in. */
  class CharacterEditor {
    var level: int
    var scores: map<string, int>
    var saveProficient: map<string, bool>
    var skillProficient: map<string, bool>
    var proficiencyText: string
    var modifierTexts: map<string, string>
    var initiativeText: string
    var saveTexts: map<string, string>
    var skillTexts: map<string, string>

    /** The level spin box holds a value within its range, and the other
        spin boxes and check boxes are those `Sheet` describes. */
    ghost predicate Valid()
      reads this`level, this`scores, this`saveProficient, this`skillProficient
    {
      MinLevel <= level <= MaxLevel && Sheet(scores, saveProficient, skillProficient)
    }

    /** There is a read-only field beside every spin box and check box. */
    ghost predicate Widgets()
      reads this
    {
      && modifierTexts.Keys == scores.Keys
      && saveTexts.Keys == saveProficient.Keys
      && skillTexts.Keys == skillProficient.Keys
    }

    /** Every read-only field shows what the inputs determine. */
    ghost predicate Shown()
      reads this
      requires Valid()
    {
      InputsValid();
      && proficiencyText == "+" + IntToString(ProficiencyBonus(level))
      && modifierTexts == ModifierTexts(scores)
      && initiativeText == modifierTexts["dexterity"]
      && saveTexts == SaveTexts(level, scores, saveProficient)
      && skillTexts == SkillTexts(SkillsMap, level, scores, skillProficient)
    }

    /** What a valid editor offers the calculation: a dexterity score, a
        score for every saving throw, and for every skill an entry of the
        table whose ability has a score. */
    lemma InputsValid()
      requires Valid()
      ensures "dexterity" in scores && saveProficient.Keys <= scores.Keys
      ensures SkillsCovered(SkillsMap, scores, skillProficient)
    {
      SheetCovered(scores, saveProficient, skillProficient);
    }

    /** `__init__`: the level spin box and every ability spin box start at
        their minimum, 1; there is an unchecked box for every saving throw and
        every skill, with an empty read-only field beside each; the signals
        are connected and `_update_all_calculations` fills the fields in. */
    constructor()
      ensures Valid() && Widgets() && Shown()
      ensures level == MinLevel
      ensures forall a :: a in scores ==> scores[a] == MinScore
      ensures forall a :: a in saveProficient ==> !saveProficient[a]
      ensures forall k :: k in skillProficient ==> !skillProficient[k]
    {
      level := MinLevel;
      scores := Filled(Abilities, MinScore);
      modifierTexts := Filled(Abilities, "");
      saveProficient := Filled(Abilities, false);
      saveTexts := Filled(Abilities, "");
      skillProficient := Filled(SkillsMap.Keys, false);
      skillTexts := Filled(SkillsMap.Keys, "");
      proficiencyText := "";
      initiativeText := "";
      new;
      SkillsTable();
      UpdateAllCalculations();
    }

    /** The level spin box is given `v`.  It keeps the value within its
        range, and emits `valueChanged` only when that changes its value. */
    method SetLevel(v: int)
      requires Valid() && Widgets() && Shown()
      modifies this`level, this`proficiencyText, this`modifierTexts, this`initiativeText, this`saveTexts, this`skillTexts
      ensures Valid() && Widgets() && Shown()
      ensures level == Clamp(v, MinLevel, MaxLevel)
    {
      var value := Clamp(v, MinLevel, MaxLevel);
      if value != level {
        LevelChanged(value);
      }
    }

    /** The level spin box's `valueChanged` signal, connected to
        `_update_all_calculations`. */
    method LevelChanged(value: int)
      requires Valid() && Widgets() && MinLevel <= value <= MaxLevel
      modifies this`level, this`proficiencyText, this`modifierTexts, this`initiativeText, this`saveTexts, this`skillTexts
      ensures Valid() && Widgets() && Shown()
      ensures level == value
    {
      level := value;
      UpdateAllCalculations();
    }

    /** The spin box of `ability` is given `v`.  It keeps the value within
        1..30, and emits `valueChanged` only when that changes its value. */
    method SetScore(ability: string, v: int)
      requires Valid() && Widgets() && Shown()
      requires ability in scores
      modifies this`scores, this`proficiencyText, this`modifierTexts, this`initiativeText, this`saveTexts, this`skillTexts
      ensures Valid() && Widgets() && Shown()
      ensures scores == old(scores)[ability := Clamp(v, MinScore, MaxScore)]
    {
      var value := Clamp(v, MinScore, MaxScore);
      if value != scores[ability] {
        ScoreChanged(ability, value);
      } else {
        assert scores == old(scores)[ability := value];
      }
    }

    /** An ability spin box's `valueChanged` signal, connected to
        `_update_all_calculations`. */
    method ScoreChanged(ability: string, value: int)
      requires Valid() && Widgets()
      requires ability in scores && MinScore <= value <= MaxScore
      modifies this`scores, this`proficiencyText, this`modifierTexts, this`initiativeText, this`saveTexts, this`skillTexts
      ensures Valid() && Widgets() && Shown()
      ensures scores == old(scores)[ability := value]
    {
      SheetScore(scores, saveProficient, skillProficient, ability, value);
      scores := scores[ability := value];
      UpdateAllCalculations();
    }

    /** The saving throw box of `ability` is set to `checked`; it emits
        `stateChanged` only when that changes its state. */
    method SetSaveProficient(ability: string, checked: bool)
      requires Valid() && Widgets() && Shown()
      requires ability in saveProficient
      modifies this`saveProficient, this`proficiencyText, this`modifierTexts, this`initiativeText, this`saveTexts, this`skillTexts
      ensures Valid() && Widgets() && Shown()
      ensures saveProficient == old(saveProficient)[ability := checked]
    {
      if checked != saveProficient[ability] {
        SaveToggled(ability, checked);
      } else {
        assert saveProficient == old(saveProficient)[ability := checked];
      }
    }

    /** A saving throw box's `stateChanged` signal, connected to
        `_update_all_calculations`. */
    method SaveToggled(ability: string, checked: bool)
      requires Valid() && Widgets()
      requires ability in saveProficient
      modifies this`saveProficient, this`proficiencyText, this`modifierTexts, this`initiativeText, this`saveTexts, this`skillTexts
      ensures Valid() && Widgets() && Shown()
      ensures saveProficient == old(saveProficient)[ability := checked]
    {
      SheetSave(scores, saveProficient, skillProficient, ability, checked);
      saveProficient := saveProficient[ability := checked];
      UpdateAllCalculations();
    }

    /** The box of `skill` is set to `checked`; it emits `stateChanged` only
        when that changes its state. */
    method SetSkillProficient(skill: string, checked: bool)
      requires Valid() && Widgets() && Shown()
      requires skill in skillProficient
      modifies this`skillProficient, this`proficiencyText, this`modifierTexts, this`initiativeText, this`saveTexts, this`skillTexts
      ensures Valid() && Widgets() && Shown()
      ensures skillProficient == old(skillProficient)[skill := checked]
    {
      if checked != skillProficient[skill] {
        SkillToggled(skill, checked);
      } else {
        assert skillProficient == old(skillProficient)[skill := checked];
      }
    }

    /** A skill box's `stateChanged` signal, connected to
        `_update_all_calculations`. */
    method SkillToggled(skill: string, checked: bool)
      requires Valid() && Widgets()
      requires skill in skillProficient
      modifies this`skillProficient, this`proficiencyText, this`modifierTexts, this`initiativeText, this`saveTexts, this`skillTexts
      ensures Valid() && Widgets() && Shown()
      ensures skillProficient == old(skillProficient)[skill := checked]
    {
      SheetSkill(scores, saveProficient, skillProficient, skill, checked);
      skillProficient := skillProficient[skill := checked];
      UpdateAllCalculations();
    }

    /** `_update_all_calculations`: builds the table of the abilities skills
        are based on and recomputes every read-only field from the inputs.
        It needs a field for every score and every check box, a dexterity
        score, a score for every saving throw, and a table entry for every
        skill. */
    method UpdateAllCalculations()
      requires Valid() && Widgets()
      modifies this`proficiencyText, this`modifierTexts, this`initiativeText, this`saveTexts, this`skillTexts
      ensures Valid() && Widgets() && Shown()
      ensures unchanged(this`level, this`scores, this`saveProficient, this`skillProficient)
    {
      InputsValid();
      Calculate(SkillsMap);
    }

    /** The body of `_update_all_calculations` given its `skills_map`: the
        bonus, the modifiers, initiative as a copy of the dexterity modifier's
        text, then the saving throws and the skills, each reading its
        modifier back from the text just written. */
    method Calculate(skillsMap: map<string, string>)
      requires modifierTexts.Keys == scores.Keys && "dexterity" in scores
      requires saveProficient.Keys <= scores.Keys && saveTexts.Keys == saveProficient.Keys
      requires skillTexts.Keys == skillProficient.Keys
      requires SkillsCovered(skillsMap, scores, skillProficient)
      modifies this`proficiencyText, this`modifierTexts, this`initiativeText, this`saveTexts, this`skillTexts
      ensures proficiencyText == "+" + IntToString(ProficiencyBonus(level))
      ensures modifierTexts == ModifierTexts(scores)
      ensures initiativeText == modifierTexts["dexterity"]
      ensures saveTexts == SaveTexts(level, scores, saveProficient)
      ensures skillTexts == SkillTexts(skillsMap, level, scores, skillProficient)
    {
      var bonus := ProficiencyBonus(level);
      proficiencyText := "+" + IntToString(bonus);
      WriteModifiers();
      initiativeText := modifierTexts["dexterity"];
      WriteSaves(bonus);
      WriteSkills(bonus, skillsMap);
    }

    /** The loop over the ability score spin boxes, in any order. */
    method WriteModifiers()
      requires modifierTexts.Keys == scores.Keys
      modifies this`modifierTexts
      ensures modifierTexts == ModifierTexts(scores)
    {
      var todo := scores.Keys;
      while todo != {}
        invariant todo <= scores.Keys && modifierTexts.Keys == scores.Keys
        invariant forall a :: a in scores && a !in todo ==> modifierTexts[a] == Signed(AbilityModifier(scores[a]))
      {
        var ability :| ability in todo;
        var modifier := AbilityModifier(scores[ability]);
        modifierTexts := modifierTexts[ability := Signed(modifier)];
        todo := todo - {ability};
      }
    }

    /** `int(self.ability_modifiers[ability].text())`: the modifier read back
        from the text of its field. */
    method ReadModifier(ability: string) returns (modifier: int)
      requires ability in scores && ability in modifierTexts
      requires modifierTexts[ability] == Signed(AbilityModifier(scores[ability]))
      ensures modifier == AbilityModifier(scores[ability])
    {
      SignedReadsBack(AbilityModifier(scores[ability]));
      modifier := ParseInt(modifierTexts[ability]).value;
    }

    /** The loop over the saving throw check boxes, in any order, given the
        proficiency bonus. */
    method WriteSaves(bonus: int)
      requires saveProficient.Keys <= scores.Keys && saveTexts.Keys == saveProficient.Keys
      requires forall a :: a in scores ==> a in modifierTexts && modifierTexts[a] == Signed(AbilityModifier(scores[a]))
      requires bonus == ProficiencyBonus(level)
      modifies this`saveTexts
      ensures saveTexts == SaveTexts(level, scores, saveProficient)
    {
      var texts := saveTexts;
      var todo := saveProficient.Keys;
      while todo != {}
        invariant todo <= saveProficient.Keys && texts.Keys == saveProficient.Keys
        invariant forall a :: a in saveProficient && a !in todo ==>
                    texts[a] == Signed(Total(AbilityModifier(scores[a]), bonus, saveProficient[a]))
      {
        var ability :| ability in todo;
        var modifier := ReadModifier(ability);
        var total := Total(modifier, bonus, saveProficient[ability]);
        texts := texts[ability := Signed(total)];
        todo := todo - {ability};
      }
      saveTexts := texts;
    }

    /** The loop over the skill check boxes, in any order, given the
        proficiency bonus and the table of the abilities skills are based on. */
    method WriteSkills(bonus: int, skillsMap: map<string, string>)
      requires SkillsCovered(skillsMap, scores, skillProficient)
      requires skillTexts.Keys == skillProficient.Keys
      requires forall a :: a in scores ==> a in modifierTexts && modifierTexts[a] == Signed(AbilityModifier(scores[a]))
      requires bonus == ProficiencyBonus(level)
      modifies this`skillTexts
      ensures skillTexts == SkillTexts(skillsMap, level, scores, skillProficient)
    {
      var texts := skillTexts;
      var todo := skillProficient.Keys;
      while todo != {}
        invariant todo <= skillProficient.Keys && texts.Keys == skillProficient.Keys
        invariant forall k :: k in skillProficient && k !in todo ==>
                    texts[k] == Signed(Total(AbilityModifier(scores[skillsMap[ReplaceChar(k, ' ', '_')]]), bonus, skillProficient[k]))
      {
        var skill :| skill in todo;
        var baseAbility := skillsMap[ReplaceChar(skill, ' ', '_')];
        var modifier := ReadModifier(baseAbility);
        var total := Total(modifier, bonus, skillProficient[skill]);
        texts := texts[skill := Signed(total)];
        todo := todo - {skill};
      }
      skillTexts := texts;
    }
  }
}

=== FILE: dice_properties.dfy ===
/** What the dice-expression evaluator guarantees, proved about its
    specification (`Evaluate` for one piece, `RollSpec` for a whole string). */
module DiceProperties {
  import opened PyText
  import opened PyList
  import opened DiceRoller

  // ---------------------------------------------------------------------
  // The dice pattern
  // ---------------------------------------------------------------------

  /** The digit run at the front of `a + rest` is exactly `a` when `rest` does
      not start with a digit. */
  lemma DigitPrefixOf(a: string, rest: string)
    requires AllDigits(a) && !StartsWithDigit(rest)
    ensures DigitPrefixLength(a + rest) == |a|
  {
    var s := a + rest;
    assert forall k :: 0 <= k < |a| ==> s[k] == a[k];
    assert |rest| > 0 ==> s[|a|] == rest[0];
  }

  /** Text of the shape `<digits>d<digits><tail>` (marker in either case, tail
      not starting with a digit) matches, with the two numbers and the tail up
      to its first newline as the three groups. */
  lemma MatchDiceOf(a: string, marker: char, b: string, tail: string)
    requires IsNumeral(a) && IsNumeral(b) && (marker == 'd' || marker == 'D') && !StartsWithDigit(tail)
    ensures MatchDice(a + [marker] + b + tail) == Some(DiceMatch(DigitsValue(a), DigitsValue(b), LineRest(tail)))
  {
    var c := a + [marker] + b + tail;
    var t := c[|a| + 1..];
    assert c[..|a|] == a && c[|a|] == marker && t == b + tail;
    assert t[..|b|] == b && t[|b|..] == tail;
    assert DigitPrefixLength(c) == |a| by {
      assert c == a + ([marker] + b + tail);
      DigitPrefixOf(a, [marker] + b + tail);
    }
    assert DigitPrefixLength(t) == |b| by {
      DigitPrefixOf(b, tail);
    }
  }

  /** Conversely, every successful match comes from text of that shape. */
  lemma MatchDiceShape(c: string) returns (a: string, marker: char, b: string, tail: string)
    requires MatchDice(c).Some?
    ensures c == a + [marker] + b + tail
    ensures IsNumeral(a) && IsNumeral(b) && (marker == 'd' || marker == 'D') && !StartsWithDigit(tail)
    ensures MatchDice(c) == Some(DiceMatch(DigitsValue(a), DigitsValue(b), LineRest(tail)))
  {
    var i := DigitPrefixLength(c);
    var t := c[i + 1..];
    var j := DigitPrefixLength(t);
    a, marker, b, tail := c[..i], c[i], t[..j], t[j..];
    assert c == a + [marker] + b + tail;
  }

  // ---------------------------------------------------------------------
  // Pieces that are not dice
  // ---------------------------------------------------------------------

  /** A piece whose stripped text is all digits is a flat number: its one
      "roll" and its total are its value, its text is `<piece> = <value>`,
      and no dice are rolled. */
  lemma FlatNumber(piece: string, rng: Source, pos: nat)
    requires IsNumeral(Strip(piece))
    ensures var c := Strip(piece);
            var v := DigitsValue(c);
            Evaluate(piece, rng, pos) == Ok(Step(Some(RollRecord(c, [v], v, c + " = " + NatToString(v))), pos))
  {
    var c := Strip(piece);
    assert DigitPrefixLength(c) == |c|;
  }

  /** `str(n)`, alone or padded with whitespace, evaluates to `n`. */
  lemma FlatNumeral(n: nat, ws1: string, ws2: string, rng: Source, pos: nat)
    requires AllSpace(ws1) && AllSpace(ws2)
    ensures var s := NatToString(n);
            Evaluate(ws1 + s + ws2, rng, pos) == Ok(Step(Some(RollRecord(s, [n], n, s + " = " + s)), pos))
  {
    var s := NatToString(n);
    NatToStringValue(n);
    StripPadded(ws1, s, ws2);
    FlatNumber(ws1 + s + ws2, rng, pos);
  }

  /** A piece that neither matches the dice pattern nor is a number is
      dropped; in particular one whose stripped text does not start with a
      digit.  Nothing is rolled for it. */
  lemma UnparsedDropped(piece: string, rng: Source, pos: nat)
    requires MatchDice(Strip(piece)).None? && !IsNumeral(Strip(piece))
    ensures Evaluate(piece, rng, pos) == Ok(Step(None, pos))
  {
  }

  lemma NoLeadingDigitDropped(piece: string, rng: Source, pos: nat)
    requires !StartsWithDigit(Strip(piece))
    ensures Evaluate(piece, rng, pos) == Ok(Step(None, pos))
  {
    UnparsedDropped(piece, rng, pos);
  }

  // ---------------------------------------------------------------------
  // Dice pieces, rule by rule
  // ---------------------------------------------------------------------

  /** Dice that do not raise are rolled from call `pos`, and the rule the
      lower-cased modifier selects is applied to the faces. */
  lemma DiceRolled(c: string, m: DiceMatch, rng: Source, pos: nat)
    requires m.count == 0 || m.sides >= 1
    ensures RollDice(m.count, m.sides, rng, pos).Ok?
    ensures EvaluateDice(c, m, rng, pos) ==
              Ok(ApplyRule(c, SelectRule(Lower(m.modifier)), Lower(m.modifier), m.sides,
                           RollDice(m.count, m.sides, rng, pos).value, rng, pos + m.count))
  {
  }

  /** A piece whose stripped text matches the dice pattern is evaluated as dice. */
  lemma DiceMatched(piece: string, m: DiceMatch, rng: Source, pos: nat)
    requires MatchDice(Strip(piece)) == Some(m)
    ensures Evaluate(piece, rng, pos) == EvaluateDice(Strip(piece), m, rng, pos)
  {
  }

  /** Dice with zero sides: one or more of them raise, whatever the modifier. */
  lemma ZeroSidesRaise(piece: string, rng: Source, pos: nat, count: nat, modifier: string)
    requires MatchDice(Strip(piece)) == Some(DiceMatch(count, 0, modifier)) && count >= 1
    ensures Evaluate(piece, rng, pos) == Raised(EmptyRange(0))
  {
  }

  /** Zero dice: no error and nothing rolled; advantage or disadvantage drop
      the piece, the other rules give no rolls and a total of 0. */
  lemma ZeroDice(piece: string, rng: Source, pos: nat, sides: nat, modifier: string)
    requires MatchDice(Strip(piece)) == Some(DiceMatch(0, sides, modifier))
    ensures var r := Evaluate(piece, rng, pos);
            var rule := SelectRule(Lower(modifier));
            && r.Ok? && r.value.next == pos
            && (rule == Advantage || rule == Disadvantage <==> r.value.record.None?)
            && (r.value.record.Some? ==> r.value.record.value.rolls == [] && r.value.record.value.total == 0)
  {
    DiceMatched(piece, DiceMatch(0, sides, modifier), rng, pos);
    DiceRolled(Strip(piece), DiceMatch(0, sides, modifier), rng, pos);
    var rule := SelectRule(Lower(modifier));
    if rule == KeepHighest || rule == KeepLowest {
      var tag := if rule == KeepHighest then 'h' else 'l';
      var keep := KeepCount(Lower(modifier), tag);
      if keep.Some? {
        assert Take(Sort([], rule == KeepHighest), keep.value) == [];
      }
    }
  }

  /** A modifier that selects no rule (for example an unknown suffix such as
      ` - 3`): `count` rolls, each in `[1, sides]`, in the order rolled; the
      total is their sum and so lies in `[count, count * sides]`; the text is
      `<piece>: [r1, ...] -> <total>`. */
  lemma PlainSumPiece(piece: string, rng: Source, pos: nat, count: nat, sides: nat, modifier: string)
    requires MatchDice(Strip(piece)) == Some(DiceMatch(count, sides, modifier))
    requires SelectRule(Lower(modifier)) == PlainSum && (count == 0 || sides >= 1)
    ensures var r := Evaluate(piece, rng, pos);
            && r.Ok? && r.value.next == pos + count && r.value.record.Some?
            && var rec := r.value.record.value;
               && |rec.rolls| == count
               && (forall i :: 0 <= i < count ==> rec.rolls[i] == rng(pos + i, sides))
               && rec.total == Sum(rec.rolls)
               && (Fair(rng) ==> Within(rec.rolls, 1, sides) && count <= rec.total <= count * sides)
               && rec.text == Strip(piece) + ": " + ListRepr(rec.rolls) + " -> " + IntToString(rec.total)
  {
    DiceMatched(piece, DiceMatch(count, sides, modifier), rng, pos);
    DiceRolled(Strip(piece), DiceMatch(count, sides, modifier), rng, pos);
    var faces := RollDice(count, sides, rng, pos).value;
    if Fair(rng) {
      SumWithin(faces, 1, sides);
    }
  }

  /** A dice piece with nothing after its sides is summed: `count` rolls in
      `[1, sides]` and a total in `[count, count * sides]`. */
  lemma NoModifierSummed(piece: string, count: nat, sides: nat, rng: Source, pos: nat)
    requires Fair(rng) && sides >= 1
    requires MatchDice(Strip(piece)) == Some(DiceMatch(count, sides, []))
    ensures var r := Evaluate(piece, rng, pos);
            && r.Ok? && r.value.record.Some?
            && var rec := r.value.record.value;
               && |rec.rolls| == count && Within(rec.rolls, 1, sides)
               && count <= rec.total <= count * sides
  {
    assert SelectRule(Lower([])) == PlainSum by {
      assert Lower([]) == [];
    }
    PlainSumPiece(piece, rng, pos, count, sides, []);
  }

  /** `"<count>d<sides>"`, for `sides >= 1`. */
  lemma PlainDice(count: nat, sides: nat, rng: Source, pos: nat)
    requires Fair(rng) && sides >= 1
    ensures var r := Evaluate(NatToString(count) + "d" + NatToString(sides), rng, pos);
            && r.Ok? && r.value.record.Some?
            && var rec := r.value.record.value;
               && |rec.rolls| == count && Within(rec.rolls, 1, sides)
               && count <= rec.total <= count * sides
  {
    var piece := NatToString(count) + "d" + NatToString(sides);
    PlainDiceMatch(count, sides);
    NoModifierSummed(piece, count, sides, rng, pos);
  }

  lemma PlainDiceMatch(count: nat, sides: nat)
    ensures MatchDice(Strip(NatToString(count) + "d" + NatToString(sides))) == Some(DiceMatch(count, sides, []))
  {
    NatToStringValue(count);
    NatToStringValue(sides);
    NumeralDiceMatch(NatToString(count), NatToString(sides));
  }

  /** `<a>d<b>` for two numerals is already stripped and matches with no modifier. */
  lemma NumeralDiceMatch(a: string, b: string)
    requires IsNumeral(a) && IsNumeral(b)
    ensures MatchDice(Strip(a + "d" + b)) == Some(DiceMatch(DigitsValue(a), DigitsValue(b), []))
  {
    var piece := a + "d" + b;
    NumeralDiceTrimmed(a, b);
    assert piece == a + ['d'] + b + [];
    MatchDiceOf(a, 'd', b, []);
  }

  lemma NumeralDiceTrimmed(a: string, b: string)
    requires IsNumeral(a) && IsNumeral(b)
    ensures Strip(a + "d" + b) == a + "d" + b
  {
    var piece := a + "d" + b;
    assert piece[0] == a[0] && piece[|piece| - 1] == b[|b| - 1];
    StripTrimmed(piece);
  }

  /** Two summed dice: both faces in the order rolled, and their sum. */
  lemma TwoDiceSummed(piece: string, rng: Source, pos: nat, sides: nat, modifier: string)
    requires MatchDice(Strip(piece)) == Some(DiceMatch(2, sides, modifier))
    requires SelectRule(Lower(modifier)) == PlainSum && sides >= 1
    ensures var r := Evaluate(piece, rng, pos);
            && r.Ok? && r.value.next == pos + 2 && r.value.record.Some?
            && r.value.record.value.rolls == [rng(pos, sides), rng(pos + 1, sides)]
            && r.value.record.value.total == rng(pos, sides) + rng(pos + 1, sides)
  {
    PlainSumPiece(piece, rng, pos, 2, sides, modifier);
    SumPair(rng(pos, sides), rng(pos + 1, sides));
  }

  lemma StripTwoD6MinusThree()
    ensures Strip("2d6 - 3") == "2d6 - 3"
  {
    assert !IsSpace('2') && !IsSpace('3');
    StripTrimmed("2d6 - 3");
  }

  lemma MatchTwoD6MinusThree()
    ensures MatchDice("2d6 - 3") == Some(DiceMatch(2, 6, " - 3"))
  {
    var piece := "2d6 - 3";
    assert DigitPrefixLength(piece) == 1 by {
      assert piece[1..][0] == 'd';
    }
    var t := piece[2..];
    assert t == "6 - 3";
    assert DigitPrefixLength(t) == 1 by {
      assert t[1..][0] == ' ';
    }
    assert piece[..1] == "2" && t[..1] == "6" && t[1..] == " - 3";
    assert DigitsValue("2") == 2 && DigitsValue("6") == 6;
    assert LineRest(" - 3") == " - 3";
  }

  lemma MinusThreeSummed()
    ensures SelectRule(Lower(" - 3")) == PlainSum
  {
    assert Lower(" - 3") == " - 3";
    assert !HasPair(" - 3", 'k', 'h') && !HasPair(" - 3", 'k', 'l');
  }

  /** An unknown suffix falls through to the plain sum: `2d6 - 3` adds two
      dice and ignores the `- 3`. */
  lemma UnknownSuffixSummed(rng: Source, pos: nat)
    ensures var r := Evaluate("2d6 - 3", rng, pos);
            && r.Ok? && r.value.next == pos + 2 && r.value.record.Some?
            && r.value.record.value.rolls == [rng(pos, 6), rng(pos + 1, 6)]
            && r.value.record.value.total == rng(pos, 6) + rng(pos + 1, 6)
  {
    StripTwoD6MinusThree();
    MatchTwoD6MinusThree();
    MinusThreeSummed();
    TwoDiceSummed("2d6 - 3", rng, pos, 6, " - 3");
  }

  /** Advantage and disadvantage: with a count other than 1 the piece is
      dropped (after its dice were rolled); with a count of 1 a second die is
      rolled, both faces are reported, the higher (advantage) or the lower
      (disadvantage) one is the total, and the text is
      `<piece>: [r1, r2] -> <total>`. */
  lemma AdvantageOrDisadvantage(piece: string, rng: Source, pos: nat, count: nat, sides: nat, modifier: string)
    requires MatchDice(Strip(piece)) == Some(DiceMatch(count, sides, modifier))
    requires SelectRule(Lower(modifier)) in {Advantage, Disadvantage} && (count == 0 || sides >= 1)
    ensures var r := Evaluate(piece, rng, pos);
            && r.Ok?
            && (count != 1 ==> r.value == Step(None, pos + count))
            && (count == 1 ==>
                  && r.value.next == pos + 2 && r.value.record.Some?
                  && var rec := r.value.record.value;
                     var x, y := rng(pos, sides), rng(pos + 1, sides);
                     && rec.rolls == [x, y]
                     && (rec.total == x || rec.total == y)
                     && (SelectRule(Lower(modifier)) == Advantage ==> rec.total >= x && rec.total >= y)
                     && (SelectRule(Lower(modifier)) == Disadvantage ==> rec.total <= x && rec.total <= y)
                     && rec.text == Strip(piece) + ": [" + IntToString(x) + ", " + IntToString(y) + "] -> "
                                    + IntToString(rec.total))
  {
    DiceMatched(piece, DiceMatch(count, sides, modifier), rng, pos);
    PairDice(Strip(piece), DiceMatch(count, sides, modifier), rng, pos);
  }

  /** The dice-level half of `AdvantageOrDisadvantage`, for the piece `c` matched as `m`. */
  lemma PairDice(c: string, m: DiceMatch, rng: Source, pos: nat)
    requires SelectRule(Lower(m.modifier)) in {Advantage, Disadvantage} && (m.count == 0 || m.sides >= 1)
    ensures var r := EvaluateDice(c, m, rng, pos);
            && r.Ok?
            && (m.count != 1 ==> r.value == Step(None, pos + m.count))
            && (m.count == 1 ==>
                  && r.value.next == pos + 2 && r.value.record.Some?
                  && var rec := r.value.record.value;
                     var x, y := rng(pos, m.sides), rng(pos + 1, m.sides);
                     && rec.rolls == [x, y]
                     && (rec.total == x || rec.total == y)
                     && (SelectRule(Lower(m.modifier)) == Advantage ==> rec.total >= x && rec.total >= y)
                     && (SelectRule(Lower(m.modifier)) == Disadvantage ==> rec.total <= x && rec.total <= y)
                     && rec.text == c + ": [" + IntToString(x) + ", " + IntToString(y) + "] -> "
                                    + IntToString(rec.total))
  {
    DiceRolled(c, m, rng, pos);
    if m.count == 1 {
      var x, y := rng(pos, m.sides), rng(pos + 1, m.sides);
      ListReprPair(x, y);
      var t := if SelectRule(Lower(m.modifier)) == Advantage then Max(x, y) else Min(x, y);
      PairText(c, IntToString(x), IntToString(y), IntToString(t));
    }
  }

  lemma StripTwoD6Kh3a()
    ensures Strip("2d6kh3a") == "2d6kh3a"
  {
    assert !IsSpace('2') && !IsSpace('a');
    StripTrimmed("2d6kh3a");
  }

  lemma MatchTwoD6Kh3a()
    ensures MatchDice("2d6kh3a") == Some(DiceMatch(2, 6, "kh3a"))
  {
    var piece := "2d6kh3a";
    assert DigitPrefixLength(piece) == 1 by {
      assert piece[1..][0] == 'd';
    }
    var t := piece[2..];
    assert t == "6kh3a";
    assert DigitPrefixLength(t) == 1 by {
      assert t[1..][0] == 'k';
    }
    assert piece[..1] == "2" && t[..1] == "6" && t[1..] == "kh3a";
    assert DigitsValue("2") == 2 && DigitsValue("6") == 6;
    assert LineRest("kh3a") == "kh3a";
  }

  lemma Kh3aAdvantage()
    ensures SelectRule(Lower("kh3a")) == Advantage
  {
    assert Lower("kh3a") == "kh3a";
    assert "kh3a"[3] == 'a';
  }

  /** Precedence: `a` is looked for before `kh`, so `2d6kh3a` asks for advantage
      on two dice and is dropped, after its two dice were rolled. */
  lemma AdvantageBeforeKeep(rng: Source, pos: nat)
    ensures Evaluate("2d6kh3a", rng, pos) == Ok(Step(None, pos + 2))
  {
    StripTwoD6Kh3a();
    MatchTwoD6Kh3a();
    Kh3aAdvantage();
    AdvantageOrDisadvantage("2d6kh3a", rng, pos, 2, 6, "kh3a");
  }

  /** Keep highest (`highest`) or keep lowest with a keep count `n`: the
      rolls are reported in the order rolled; the kept faces are `min(n,
      count)` of them, each at least (most) as high as every face left out;
      the total is the sum of the kept faces, which is the sum of all rolls
      when `n >= count` and 0 when `n == 0`. */
  lemma KeepWithCount(piece: string, rng: Source, pos: nat, count: nat, sides: nat, modifier: string,
                      highest: bool, n: nat)
    requires MatchDice(Strip(piece)) == Some(DiceMatch(count, sides, modifier))
    requires SelectRule(Lower(modifier)) == (if highest then KeepHighest else KeepLowest)
    requires KeepCount(Lower(modifier), if highest then 'h' else 'l') == Some(n)
    requires count == 0 || sides >= 1
    ensures var r := Evaluate(piece, rng, pos);
            && r.Ok? && r.value.next == pos + count && r.value.record.Some?
            && var rec := r.value.record.value;
               var kept := Take(Sort(rec.rolls, highest), n);
               && |rec.rolls| == count
               && (forall i :: 0 <= i < count ==> rec.rolls[i] == rng(pos + i, sides))
               && |kept| == (if n < count then n else count)
               && multiset(kept) <= multiset(rec.rolls)
               && (forall x, y :: x in kept && y in multiset(rec.rolls) - multiset(kept) ==> InOrder(x, y, highest))
               && rec.total == Sum(kept)
               && (n >= count ==> rec.total == Sum(rec.rolls))
               && (n == 0 ==> rec.total == 0)
               && rec.text == Strip(piece) + ": " + ListRepr(rec.rolls) + " -> Kept " + ListRepr(kept)
                              + " = " + IntToString(rec.total)
  {
    DiceMatched(piece, DiceMatch(count, sides, modifier), rng, pos);
    DiceRolled(Strip(piece), DiceMatch(count, sides, modifier), rng, pos);
    var faces := RollDice(count, sides, rng, pos).value;
    KeptFaces(faces, n, highest);
  }

  /** The faces kept by a keep count `n`: `min(n, |faces|)` of them, each at
      least (most) as high as every face left out, with the sum of all faces
      when `n >= |faces|` and 0 when `n == 0`. */
  lemma KeptFaces(faces: seq<int>, n: nat, highest: bool)
    ensures var kept := Take(Sort(faces, highest), n);
            && |kept| == (if n < |faces| then n else |faces|)
            && multiset(kept) <= multiset(faces)
            && (forall x, y :: x in kept && y in multiset(faces) - multiset(kept) ==> InOrder(x, y, highest))
            && (n >= |faces| ==> Sum(kept) == Sum(faces))
            && (n == 0 ==> Sum(kept) == 0)
  {
    KeptAreExtreme(faces, n, highest);
    var sorted := Sort(faces, highest);
    var kept := Take(sorted, n);
    var rest := sorted[|kept|..];
    assert |sorted| == |faces| by {
      assert |multiset(sorted)| == |multiset(faces)|;
    }
    assert multiset(rest) == multiset(faces) - multiset(kept);
    forall x, y | x in kept && y in multiset(faces) - multiset(kept)
      ensures InOrder(x, y, highest)
    {
      assert y in rest;
      var i :| 0 <= i < |kept| && kept[i] == x;
      var j :| 0 <= j < |rest| && rest[j] == y;
    }
  }

  /** `kh` or `kl` without digits after it: the piece is kept with its rolls,
      a total of 0, and a text without a `->` part. */
  lemma KeepWithoutCount(piece: string, rng: Source, pos: nat, count: nat, sides: nat, modifier: string,
                         highest: bool)
    requires MatchDice(Strip(piece)) == Some(DiceMatch(count, sides, modifier))
    requires SelectRule(Lower(modifier)) == (if highest then KeepHighest else KeepLowest)
    requires KeepCount(Lower(modifier), if highest then 'h' else 'l').None?
    requires count == 0 || sides >= 1
    ensures var r := Evaluate(piece, rng, pos);
            && r.Ok? && r.value.next == pos + count && r.value.record.Some?
            && var rec := r.value.record.value;
               && |rec.rolls| == count
               && (forall i :: 0 <= i < count ==> rec.rolls[i] == rng(pos + i, sides))
               && rec.total == 0
               && rec.text == Strip(piece) + ": " + ListRepr(rec.rolls)
  {
    DiceMatched(piece, DiceMatch(count, sides, modifier), rng, pos);
    DiceRolled(Strip(piece), DiceMatch(count, sides, modifier), rng, pos);
  }

  // ---------------------------------------------------------------------
  // Whole dice strings
  // ---------------------------------------------------------------------

  lemma {:induction false} SumTotalsConcat(a: seq<RollRecord>, b: seq<RollRecord>)
    ensures SumTotals(a + b) == SumTotals(a) + SumTotals(b)
    decreases |b|
  {
    if b == [] {
      assert a + b == a;
    } else {
      var front := b[..|b| - 1];
      assert (a + b)[..|a + b| - 1] == a + front;
      SumTotalsConcat(a, front);
    }
  }

  /** The first `n` pieces of `p + q`, with `n` within `p`, are evaluated
      exactly as the first `n` pieces of `p`. */
  lemma {:induction false} EvaluatePiecesPrefix(eval: PieceEval, p: seq<string>, q: seq<string>, n: nat, pos: nat)
    requires n <= |p|
    ensures EvaluatePieces(eval, p + q, n, pos) == EvaluatePieces(eval, p, n, pos)
    decreases n
  {
    if n > 0 {
      EvaluatePiecesPrefix(eval, p, q, n - 1, pos);
      assert (p + q)[n - 1] == p[n - 1];
    }
  }

  /** Evaluating all of `p1` and the first `k` pieces of `p2` is evaluating
      `p1`, then those pieces of `p2` from the call number where `p1` stopped;
      the records are those of `p1` followed by those of `p2`. */
  lemma {:induction false} EvaluatePiecesAppend(eval: PieceEval, p1: seq<string>, p2: seq<string>, k: nat, pos: nat)
    requires k <= |p2|
    ensures EvaluatePieces(eval, p1 + p2, |p1| + k, pos) ==
              match EvaluateAll(eval, p1, pos)
              case Raised(e) => Raised(e)
              case Ok((rs1, at)) =>
                match EvaluatePieces(eval, p2, k, at)
                case Raised(e) => Raised(e)
                case Ok((rs2, end)) => Ok((rs1 + rs2, end))
    decreases k
  {
    if k == 0 {
      EvaluatePiecesPrefix(eval, p1, p2, |p1|, pos);
      match EvaluateAll(eval, p1, pos)
      case Raised(e) =>
      case Ok((rs1, at)) => assert rs1 + [] == rs1;
    } else {
      EvaluatePiecesAppend(eval, p1, p2, k - 1, pos);
      assert (p1 + p2)[|p1| + k - 1] == p2[k - 1];
      match EvaluateAll(eval, p1, pos)
      case Raised(e) =>
      case Ok((rs1, at)) =>
        match EvaluatePieces(eval, p2, k - 1, at)
        case Raised(e) =>
        case Ok((rs2, mid)) =>
          match eval(p2[k - 1], mid)
          case Raised(e) =>
          case Ok(step) =>
            assert rs1 + rs2 + Accepted(step.record) == rs1 + (rs2 + Accepted(step.record));
    }
  }

  /** Pieces evaluated after pieces that do not raise: the records are
      concatenated and the second run starts where the first stopped. */
  lemma PiecesConcat(eval: PieceEval, p1: seq<string>, p2: seq<string>,
                     r1: seq<RollRecord>, at: nat, r2: seq<RollRecord>, end: nat)
    requires EvaluateAll(eval, p1, 0) == Ok((r1, at))
    requires EvaluateAll(eval, p2, at) == Ok((r2, end))
    ensures EvaluateAll(eval, p1 + p2, 0) == Ok((r1 + r2, end))
  {
    EvaluatePiecesAppend(eval, p1, p2, |p2|, 0);
  }

  /** Pieces evaluated after pieces that raise: the same error is raised. */
  lemma PiecesRaised(eval: PieceEval, p1: seq<string>, p2: seq<string>)
    requires EvaluateAll(eval, p1, 0).Raised?
    ensures EvaluateAll(eval, p1 + p2, 0) == EvaluateAll(eval, p1, 0)
  {
    EvaluatePiecesAppend(eval, p1, p2, |p2|, 0);
  }

  /** `Split(a + "+" + b, '+')` is the pieces of `a` followed by those of `b`. */
  lemma SplitAtPlus(a: string, b: string)
    ensures Split(a + "+" + b, '+') == Split(a, '+') + Split(b, '+')
  {
    assert a + "+" + b == a + ['+'] + b;
    SplitAppend(a, b, '+');
  }

  /** `roll(a + "+" + b)` is `roll(a)` followed by `roll(b)`, whose dice
      come after those of `a`: when neither half raises, the records are
      those of `a` followed by those of `b`, and the grand total is the sum of
      the two halves' totals.  This holds whatever the piece evaluator. */
  lemma RollConcat(a: string, b: string, eval: PieceEval, ra: seq<RollRecord>, at: nat, rb: seq<RollRecord>, end: nat)
    requires EvaluateAll(eval, Split(a, '+'), 0) == Ok((ra, at))
    requires EvaluateAll(eval, Split(b, '+'), at) == Ok((rb, end))
    ensures var r := RollSpec(a + "+" + b, eval);
            r.Ok? && r.value.results == ra + rb && r.value.grandTotal == SumTotals(ra) + SumTotals(rb)
  {
    SplitAtPlus(a, b);
    PiecesConcat(eval, Split(a, '+'), Split(b, '+'), ra, at, rb, end);
    SumTotalsConcat(ra, rb);
  }

  /** An error raised in the first half of `a + "+" + b` is raised by the whole. */
  lemma RollConcatRaised(a: string, b: string, eval: PieceEval)
    requires EvaluateAll(eval, Split(a, '+'), 0).Raised?
    ensures RollSpec(a + "+" + b, eval).Raised?
    ensures RollSpec(a + "+" + b, eval).error == EvaluateAll(eval, Split(a, '+'), 0).error
  {
    SplitAtPlus(a, b);
    PiecesRaised(eval, Split(a, '+'), Split(b, '+'));
  }

  /** Pieces that are all dropped without rolling contribute nothing and roll nothing. */
  lemma {:induction false} AllDropped(eval: PieceEval, pieces: seq<string>, n: nat, pos: nat)
    requires n <= |pieces|
    requires forall k :: 0 <= k < |pieces| ==> eval(pieces[k], pos) == Ok(Step(None, pos))
    ensures EvaluatePieces(eval, pieces, n, pos) == Ok(([], pos))
    decreases n
  {
    if n > 0 {
      AllDropped(eval, pieces, n - 1, pos);
    }
  }

  /** A dice string none of whose `+`-separated pieces starts with a digit
      yields no records and a grand total of 0. */
  lemma RollNothing(s: string, rng: Source)
    requires forall k :: 0 <= k < |Split(s, '+')| ==> !StartsWithDigit(Strip(Split(s, '+')[k]))
    ensures RollSpec(s, Evaluator(rng)) == Ok(Rolled([], 0))
  {
    var pieces := Split(s, '+');
    forall k | 0 <= k < |pieces|
      ensures Evaluator(rng)(pieces[k], 0) == Ok(Step(None, 0))
    {
      NoLeadingDigitDropped(pieces[k], rng, 0);
    }
    AllDropped(Evaluator(rng), pieces, |pieces|, 0);
  }

  /** A dice string without `+` and without surrounding whitespace that
      does not start with a digit yields no records and a grand total of 0. */
  lemma RollSingleDropped(s: string, rng: Source)
    requires '+' !in s && Trimmed(s) && !StartsWithDigit(s)
    ensures RollSpec(s, Evaluator(rng)) == Ok(Rolled([], 0))
  {
    SplitFree(s, '+');
    StripTrimmed(s);
    RollNothing(s, rng);
  }

  /** `roll("")` gives `([], 0)`. */
  lemma RollEmpty(rng: Source)
    ensures RollSpec("", Evaluator(rng)) == Ok(Rolled([], 0))
  {
    RollSingleDropped("", rng);
  }

  /** `roll("d20")` gives `([], 0)`: the pattern needs a count before the `d`. */
  lemma RollWithoutCount(rng: Source)
    ensures RollSpec("d20", Evaluator(rng)) == Ok(Rolled([], 0))
  {
    assert !IsSpace('d') && !IsSpace('0');
    RollSingleDropped("d20", rng);
  }

  /** `roll("-5")` gives `([], 0)`: a negative number is not a numeral. */
  lemma RollNegative(rng: Source)
    ensures RollSpec("-5", Evaluator(rng)) == Ok(Rolled([], 0))
  {
    assert !IsSpace('-') && !IsSpace('5');
    RollSingleDropped("-5", rng);
  }
}

=== FILE: dice_roller.dfy ===
/** The dice-expression evaluator of `utils/dice_roller.py`: `roll_dice`,
    `parse_and_roll` and `roll`.  Python's global random generator is replaced
    by an explicit source of values, so every evaluation is deterministic. */
module DiceRoller {
  import opened PyText
  import opened PyList

  /** The source of randomness: `rng(k, s)` is the value that the k-th call of
      `random.randint(1, s)` returns, counting calls from 0 over a whole `roll`. */
  type Source = (nat, nat) -> int

  /** A source that keeps the promise of `randint(1, s)`: a value in `[1, s]`. */
  ghost predicate Fair(rng: Source) {
    forall k: nat, s: nat :: 1 <= s ==> 1 <= rng(k, s) <= s
  }

  /** The one error the evaluator can meet: `randint(1, 0)` raises `ValueError`. */
  datatype Error = EmptyRange(sides: nat)

  datatype Result<+T> = Ok(value: T) | Raised(error: Error)

  /** The dictionary `parse_and_roll` returns for a piece it accepts. */
  datatype RollRecord = RollRecord(component: string, rolls: seq<int>, total: int, text: string)

  /** What one piece yields: its record (`None` when the piece is dropped) and
      the number of the next `randint` call. */
  datatype Step = Step(record: Option<RollRecord>, next: nat)

  // ---------------------------------------------------------------------
  // roll_dice
  // ---------------------------------------------------------------------

  /** `roll_dice(count, sides)`: `count` calls of `randint(1, sides)`, the first
      of them being call number `pos`. */
  function RollDice(count: nat, sides: nat, rng: Source, pos: nat): (r: Result<seq<int>>)
    ensures r.Raised? <==> count >= 1 && sides == 0
    ensures r.Ok? ==> |r.value| == count
    ensures r.Ok? ==> forall i :: 0 <= i < count ==> r.value[i] == rng(pos + i, sides)
    ensures r.Ok? && Fair(rng) ==> Within(r.value, 1, sides)
  {
    if count == 0 then Ok([])
    else if sides == 0 then Raised(EmptyRange(sides))
    else Ok(seq(count, i requires 0 <= i < count => rng(pos + i, sides)))
  }

  // ---------------------------------------------------------------------
  // The pattern (\d+)d(\d+)(.*), matched case-insensitively at the start
  // ---------------------------------------------------------------------

  /** The three groups of a successful match, the first two converted by `int`. */
  datatype DiceMatch = DiceMatch(count: nat, sides: nat, modifier: string)

  /** What `.*` matches: everything before the first newline. */
  function LineRest(s: string): (r: string)
    ensures r <= s && '\n' !in r
    ensures |r| < |s| ==> s[|r|] == '\n'
  {
    if s == [] || s[0] == '\n' then [] else [s[0]] + LineRest(s[1..])
  }

  /** `re.match(r'(\d+)d(\d+)(.*)', c, re.IGNORECASE)`.  Both digit groups are
      greedy and a digit can never stand where `d` is expected, so the match,
      when there is one, takes every leading digit and every digit after the
      marker. */
  function MatchDice(c: string): (r: Option<DiceMatch>)
    ensures r.Some? ==> StartsWithDigit(c) && '\n' !in r.value.modifier
  {
    var i := DigitPrefixLength(c);
    if i == 0 || i == |c| || (c[i] != 'd' && c[i] != 'D') then None
    else
      var t := c[i + 1..];
      var j := DigitPrefixLength(t);
      if j == 0 then None
      else Some(DiceMatch(DigitsValue(c[..i]), DigitsValue(t[..j]), LineRest(t[j..])))
  }

  // ---------------------------------------------------------------------
  // The modifier
  // ---------------------------------------------------------------------

  /** `[x, y] in s` written as Python's substring test `xy in s`. */
  predicate HasPair(s: string, x: char, y: char) {
    exists i :: 0 <= i < |s| - 1 && s[i] == x && s[i + 1] == y
  }

  datatype Rule = Advantage | Disadvantage | KeepHighest | KeepLowest | PlainSum

  /** The rule the lower-cased modifier selects.  The tests are made in a
      fixed order and the first that succeeds wins: `a`, then `d`, then `kh`,
      then `kl`; a modifier with none of them is summed. */
  function SelectRule(modifier: string): (r: Rule)
    ensures r == Advantage <==> 'a' in modifier
    ensures r == Disadvantage <==> 'a' !in modifier && 'd' in modifier
    ensures r == KeepHighest <==> 'a' !in modifier && 'd' !in modifier && HasPair(modifier, 'k', 'h')
    ensures r == KeepLowest <==>
              'a' !in modifier && 'd' !in modifier && !HasPair(modifier, 'k', 'h') && HasPair(modifier, 'k', 'l')
    ensures r == PlainSum <==>
              'a' !in modifier && 'd' !in modifier && !HasPair(modifier, 'k', 'h') && !HasPair(modifier, 'k', 'l')
  {
    if 'a' in modifier then Advantage
    else if 'd' in modifier then Disadvantage
    else if HasPair(modifier, 'k', 'h') then KeepHighest
    else if HasPair(modifier, 'k', 'l') then KeepLowest
    else PlainSum
  }

  /** `k`, then `tag`, then a digit start at position `i` of `m`. */
  predicate KeepAt(m: string, tag: char, i: int) {
    0 <= i && i + 2 < |m| && m[i] == 'k' && m[i + 1] == tag && IsDigit(m[i + 2])
  }

  /** Where `re.search(r'k<tag>(\d+)', m)` finds its match, looking from `from` on:
      the first position with `k`, `tag` and a digit. */
  function FindKeep(m: string, tag: char, from: nat): (r: Option<nat>)
    ensures r.Some? ==> from <= r.value && KeepAt(m, tag, r.value)
    ensures r.Some? ==> forall j :: from <= j < r.value ==> !KeepAt(m, tag, j)
    ensures r.None? ==> forall j :: from <= j ==> !KeepAt(m, tag, j)
    decreases |m| - from
  {
    if from + 2 >= |m| then None
    else if KeepAt(m, tag, from) then Some(from)
    else FindKeep(m, tag, from + 1)
  }

  /** `int(re.search(r'k<tag>(\d+)', m).group(1))`, or `None` when the search
      fails: the number after the first `k<tag>` that a digit follows. */
  function KeepCount(m: string, tag: char): Option<nat> {
    match FindKeep(m, tag, 0)
    case None => None
    case Some(i) => Some(LeadingNumber(m[i + 2..]))
  }

  /** The keep count is missing exactly when no `k<tag>` is followed by a
      digit, and otherwise is the number after the first such `k<tag>`. */
  lemma KeepCountFirst(m: string, tag: char)
    ensures KeepCount(m, tag).None? <==> forall j :: 0 <= j ==> !KeepAt(m, tag, j)
    ensures KeepCount(m, tag).Some? ==>
              exists i :: && KeepAt(m, tag, i)
                          && (forall j :: 0 <= j < i ==> !KeepAt(m, tag, j))
                          && KeepCount(m, tag).value == LeadingNumber(m[i + 2..])
  {
  }

  // ---------------------------------------------------------------------
  // The records of the five rules and of a bare number
  // ---------------------------------------------------------------------

  function Max(x: int, y: int): int { if x >= y then x else y }

  function Min(x: int, y: int): int { if x <= y then x else y }

  /** A bare number `c`: one "roll", its value. */
  function FlatRecord(c: string): RollRecord
    requires IsNumeral(c)
  {
    var v := DigitsValue(c);
    RollRecord(c, [v], v, c + " = " + NatToString(v))
  }

  /** Advantage (`highest`) or disadvantage: both faces are kept, the higher
      (lower) one counts. */
  function PairRecord(c: string, first: int, second: int, highest: bool): RollRecord {
    var total := if highest then Max(first, second) else Min(first, second);
    RollRecord(c, [first, second], total, c + ": " + ListRepr([first, second]) + " -> " + IntToString(total))
  }

  /** Keep highest (`highest`) or keep lowest: with a keep count `n` the first
      `n` faces of the sorted list count; without one nothing counts. */
  function KeepRecord(c: string, faces: seq<int>, keep: Option<nat>, highest: bool): RollRecord {
    match keep
    case None => RollRecord(c, faces, 0, c + ": " + ListRepr(faces))
    case Some(n) =>
      var kept := Take(Sort(faces, highest), n);
      RollRecord(c, faces, Sum(kept),
                 c + ": " + ListRepr(faces) + " -> Kept " + ListRepr(kept) + " = " + IntToString(Sum(kept)))
  }

  /** A keep record lists the faces as rolled; its total is 0 without a keep
      count or with a count of 0, and the sum of every face when the count
      reaches the number of faces. */
  lemma KeepTotals(c: string, faces: seq<int>, keep: Option<nat>, highest: bool)
    ensures var r := KeepRecord(c, faces, keep, highest);
            && r.component == c && r.rolls == faces
            && (keep.None? ==> r.total == 0)
            && (keep == Some(0) ==> r.total == 0)
            && (keep.Some? && keep.value >= |faces| ==> r.total == Sum(faces))
  {
    match keep
    case None =>
    case Some(n) =>
      KeptAreExtreme(faces, n, highest);
  }

  /** A bare number is one "roll" whose value is what `int` reads from it. */
  lemma FlatValue(c: string)
    requires IsNumeral(c)
    ensures var r := FlatRecord(c);
            r.component == c && r.rolls == [r.total] && ParseInt(c) == Some(r.total)
  {
  }

  /** Both faces are reported, and the total is the higher of them for
      advantage and the lower for disadvantage. */
  lemma PairTotal(c: string, first: int, second: int, highest: bool)
    ensures var r := PairRecord(c, first, second, highest);
            && r.component == c && r.rolls == [first, second]
            && (r.total == first || r.total == second)
            && (highest ==> r.total >= first && r.total >= second)
            && (!highest ==> r.total <= first && r.total <= second)
  {
  }

  /** No recognised modifier: every face counts. */
  function SumRecord(c: string, faces: seq<int>): RollRecord {
    RollRecord(c, faces, Sum(faces), c + ": " + ListRepr(faces) + " -> " + IntToString(Sum(faces)))
  }

  /** Applies `rule` to the faces already rolled for the piece `c`; `next` is
      the number of the next `randint` call. */
  function ApplyRule(c: string, rule: Rule, modifier: string, sides: nat, faces: seq<int>,
                     rng: Source, next: nat): Step
  {
    match rule
    case Advantage =>
      if |faces| != 1 then Step(None, next)
      else Step(Some(PairRecord(c, faces[0], rng(next, sides), true)), next + 1)
    case Disadvantage =>
      if |faces| != 1 then Step(None, next)
      else Step(Some(PairRecord(c, faces[0], rng(next, sides), false)), next + 1)
    case KeepHighest => Step(Some(KeepRecord(c, faces, KeepCount(modifier, 'h'), true)), next)
    case KeepLowest => Step(Some(KeepRecord(c, faces, KeepCount(modifier, 'l'), false)), next)
    case PlainSum => Step(Some(SumRecord(c, faces)), next)
  }

  /** What a rule does with the faces: advantage and disadvantage drop a
      piece that did not roll exactly one die, and otherwise roll one more
      and report two faces; every other rule keeps the piece and reports the
      faces as rolled. */
  lemma RuleOutcome(c: string, rule: Rule, modifier: string, sides: nat, faces: seq<int>, rng: Source, next: nat)
    ensures var r := ApplyRule(c, rule, modifier, sides, faces, rng, next);
            && (r.record.None? <==> (rule == Advantage || rule == Disadvantage) && |faces| != 1)
            && r.next == (if (rule == Advantage || rule == Disadvantage) && |faces| == 1 then next + 1 else next)
            && (r.record.Some? ==> r.record.value.component == c)
            && (r.record.Some? && (rule == Advantage || rule == Disadvantage) ==> |r.record.value.rolls| == 2)
            && (r.record.Some? && rule != Advantage && rule != Disadvantage ==> r.record.value.rolls == faces)
  {
  }

  /** What `parse_and_roll(component)` returns when its first `randint` call
      is call number `pos`, or the error it raises.  The only error is a
      piece that asks for one or more dice with zero sides. */
  function Evaluate(component: string, rng: Source, pos: nat): (r: Result<Step>)
    ensures r.Raised? <==>
              var m := MatchDice(Strip(component));
              m.Some? && m.value.count >= 1 && m.value.sides == 0
    ensures r.Ok? ==> pos <= r.value.next
    ensures r.Ok? && r.value.record.Some? ==> r.value.record.value.component == Strip(component)
  {
    var c := Strip(component);
    match MatchDice(c)
    case None => Ok(Step(if IsNumeral(c) then Some(FlatRecord(c)) else None, pos))
    case Some(m) => EvaluateDice(c, m, rng, pos)
  }

  /** What a piece `c` that matches the pattern as `m` yields: the dice are
      rolled, then the rule the modifier selects is applied to the faces. */
  function EvaluateDice(c: string, m: DiceMatch, rng: Source, pos: nat): (r: Result<Step>)
    ensures r.Raised? <==> m.count >= 1 && m.sides == 0
    ensures r.Ok? ==> pos <= r.value.next
    ensures r.Ok? && r.value.record.Some? ==> r.value.record.value.component == c
  {
    var modifier := Lower(m.modifier);
    match RollDice(m.count, m.sides, rng, pos)
    case Raised(e) => Raised(e)
    case Ok(faces) => Ok(ApplyRule(c, SelectRule(modifier), modifier, m.sides, faces, rng, pos + m.count))
  }

  // ---------------------------------------------------------------------
  // parse_and_roll, statement by statement
  // ---------------------------------------------------------------------

  /** `parse_and_roll(component)`.  It returns what `Evaluate` describes. */
  method ParseAndRoll(component: string, rng: Source, pos: nat) returns (r: Result<Step>)
    ensures r == Evaluate(component, rng, pos)
  {
    var c := Strip(component);
    var m := MatchDice(c);
    if m.None? {
      if IsNumeral(c) {
        var val := DigitsValue(c);
        assert RollRecord(c, [val], val, c + " = " + NatToString(val)) == FlatRecord(c);
        return Ok(Step(Some(RollRecord(c, [val], val, c + " = " + NatToString(val))), pos));
      }
      return Ok(Step(None, pos));
    }
    var count, sides, modifier := m.value.count, m.value.sides, m.value.modifier;
    modifier := Lower(modifier);

    var dice := RollDice(count, sides, rng, pos);
    if dice.Raised? {
      return Raised(dice.error);
    }
    var step := ApplyModifier(c, m.value, modifier, dice.value, rng, pos);
    return Ok(step);
  }

  /** The rest of `parse_and_roll` once the dice of the match `m` are rolled:
      `rolls` are the faces, the first of them from call number `pos`.  The
      lists and the total it updates are local variables. */
  method ApplyModifier(c: string, m: DiceMatch, modifier: string, rolls: seq<int>, rng: Source, pos: nat)
    returns (step: Step)
    requires modifier == Lower(m.modifier) && RollDice(m.count, m.sides, rng, pos) == Ok(rolls)
    ensures Ok(step) == EvaluateDice(c, m, rng, pos)
  {
    var sides, next := m.sides, pos + m.count;
    var originalRolls := rolls;
    var total := 0;
    var textParts := [c + ": " + ListRepr(originalRolls)];
    var after := next;

    if 'a' in modifier {
      if |rolls| != 1 {
        return Step(None, next);
      }
      originalRolls, total, textParts, after := RollPair(c, rolls[0], sides, rng, next, true);
    } else if 'd' in modifier {
      if |rolls| != 1 {
        return Step(None, next);
      }
      originalRolls, total, textParts, after := RollPair(c, rolls[0], sides, rng, next, false);
    } else if HasPair(modifier, 'k', 'h') {
      total, textParts := RollKeep(c, rolls, textParts, KeepCount(modifier, 'h'), true);
    } else if HasPair(modifier, 'k', 'l') {
      total, textParts := RollKeep(c, rolls, textParts, KeepCount(modifier, 'l'), false);
    } else {
      total := Sum(rolls);
      textParts := textParts + ["-> " + IntToString(total)];
      JoinTwo(textParts);
      SumText(c + ": " + ListRepr(originalRolls), IntToString(total));
    }
    step := Step(Some(RollRecord(c, originalRolls, total, Join(textParts, " "))), after);
  }

  /** The keep-highest (`highest`) or keep-lowest branch of `parse_and_roll`,
      given the rolls and the text written so far: with a keep count the
      rolls are sorted, the first ones kept and summed, and a second text
      part written; without one the total stays 0. */
  method RollKeep(c: string, rolls: seq<int>, textParts: seq<string>, keep: Option<nat>, highest: bool)
    returns (total: int, parts: seq<string>)
    requires textParts == [c + ": " + ListRepr(rolls)]
    ensures RollRecord(c, rolls, total, Join(parts, " ")) == KeepRecord(c, rolls, keep, highest)
  {
    total := 0;
    parts := textParts;
    if keep.Some? {
      var sorted := Sort(rolls, highest);
      var kept := Take(sorted, keep.value);
      total := Sum(kept);
      parts := parts + ["-> Kept " + ListRepr(kept) + " = " + IntToString(total)];
      KeptText(c + ": " + ListRepr(rolls), ListRepr(kept), IntToString(total));
    }
    JoinTwo(parts);
  }

  /** The advantage (`highest`) or disadvantage branch of `parse_and_roll`
      once the first face is known: a second `randint(1, sides)`, both faces
      listed, the higher (lower) one as the total. */
  method RollPair(c: string, first: int, sides: nat, rng: Source, next: nat, highest: bool)
    returns (originalRolls: seq<int>, total: int, textParts: seq<string>, after: nat)
    requires sides >= 1
    ensures after == next + 1
    ensures RollRecord(c, originalRolls, total, Join(textParts, " ")) == PairRecord(c, first, rng(next, sides), highest)
  {
    var second := RollDice(1, sides, rng, next);
    originalRolls := [first] + second.value;
    after := next + 1;
    total := if highest then Max(first, second.value[0]) else Min(first, second.value[0]);
    textParts := [c + ": [" + IntToString(first) + ", " + IntToString(second.value[0]) + "] -> "
                  + IntToString(total)];
    ListReprPair(first, second.value[0]);
    PairText(c, IntToString(first), IntToString(second.value[0]), IntToString(total));
    JoinTwo(textParts);
    assert originalRolls == [first, second.value[0]];
  }

  lemma PairText(head: string, x: string, y: string, total: string)
    ensures head + ": [" + x + ", " + y + "] -> " + total
            == head + ": " + ("[" + x + ", " + y + "]") + " -> " + total
  {
    assert ": " + "[" == ": [";
    assert "]" + " -> " == "] -> ";
  }

  lemma KeptText(head: string, kept: string, total: string)
    ensures head + " " + ("-> Kept " + kept + " = " + total) == head + " -> Kept " + kept + " = " + total
  {
    assert " " + "-> Kept " == " -> Kept ";
  }

  lemma SumText(head: string, total: string)
    ensures head + " " + ("-> " + total) == head + " -> " + total
  {
    assert " " + "-> " == " -> ";
  }

  lemma JoinTwo(parts: seq<string>)
    ensures |parts| == 1 ==> Join(parts, " ") == parts[0]
    ensures |parts| == 2 ==> Join(parts, " ") == parts[0] + " " + parts[1]
  {
    if |parts| == 2 {
      assert parts[1..] == [parts[1]];
    }
  }

  // ---------------------------------------------------------------------
  // roll
  // ---------------------------------------------------------------------

  /** What `roll` returns: the records of the accepted pieces and the grand total. */
  datatype Rolled = Rolled(results: seq<RollRecord>, grandTotal: int)

  /** The grand total of a run of records: the sum of their totals. */
  function SumTotals(records: seq<RollRecord>): int {
    if records == [] then 0
    else SumTotals(records[..|records| - 1]) + records[|records| - 1].total
  }

  lemma SumTotalsAppend(records: seq<RollRecord>, record: RollRecord)
    ensures SumTotals(records + [record]) == SumTotals(records) + record.total
  {
    assert (records + [record])[..|records|] == records;
  }

  function Accepted(record: Option<RollRecord>): seq<RollRecord> {
    if record.Some? then [record.value] else []
  }

  /** How one piece is evaluated: its result as a function of the piece and
      of the number of the next `randint` call. */
  type PieceEval = (string, nat) -> Result<Step>

  /** `parse_and_roll` as a piece evaluator over the source `rng`. */
  function Evaluator(rng: Source): PieceEval {
    (piece: string, pos: nat) => Evaluate(piece, rng, pos)
  }

  /** The first `n` pieces evaluated left to right by `eval`, the first
      `randint` call being call number `pos`: the records of the accepted
      pieces, in order, and the number of the next call. */
  function EvaluatePieces(eval: PieceEval, pieces: seq<string>, n: nat, pos: nat): (r: Result<(seq<RollRecord>, nat)>)
    requires n <= |pieces|
    ensures r.Ok? ==> |r.value.0| <= n
  {
    if n == 0 then Ok(([], pos))
    else
      match EvaluatePieces(eval, pieces, n - 1, pos)
      case Raised(e) => Raised(e)
      case Ok((records, at)) =>
        match eval(pieces[n - 1], at)
        case Raised(e) => Raised(e)
        case Ok(step) => Ok((records + Accepted(step.record), step.next))
  }

  /** All the pieces evaluated left to right. */
  function EvaluateAll(eval: PieceEval, pieces: seq<string>, pos: nat): Result<(seq<RollRecord>, nat)> {
    EvaluatePieces(eval, pieces, |pieces|, pos)
  }

  /** What the loop of `roll(dice_string)` returns, or the error it raises,
      when each piece is evaluated by `eval`. */
  function RollSpec(diceString: string, eval: PieceEval): Result<Rolled> {
    Outcome(EvaluateAll(eval, Split(diceString, '+'), 0))
  }

  /** The error raised, or the accepted records with their summed totals. */
  function Outcome(evaluated: Result<(seq<RollRecord>, nat)>): Result<Rolled> {
    match evaluated
    case Raised(e) => Raised(e)
    case Ok((records, _)) => Ok(Rolled(records, SumTotals(records)))
  }

  /** A roll that raises nothing reports at most one record per piece, and
      its grand total is the sum of their totals. */
  lemma RollSpecTotals(diceString: string, eval: PieceEval)
    ensures var r := RollSpec(diceString, eval);
            r.Ok? ==> |r.value.results| <= |Split(diceString, '+')| && r.value.grandTotal == SumTotals(r.value.results)
  {
  }

  /** Once the first `k` pieces raise, the first `n >= k` raise the same error. */
  lemma {:induction false} RaisedPrefix(eval: PieceEval, pieces: seq<string>, k: nat, n: nat, pos: nat)
    requires k <= n <= |pieces| && EvaluatePieces(eval, pieces, k, pos).Raised?
    ensures EvaluatePieces(eval, pieces, n, pos) == EvaluatePieces(eval, pieces, k, pos)
    decreases n
  {
    if k < n {
      RaisedPrefix(eval, pieces, k, n - 1, pos);
    }
  }

  /** `roll(dice_string)`: split on `+`, evaluate each piece in turn, keep the
      accepted records and add up their totals. */
  method Roll(diceString: string, rng: Source) returns (r: Result<Rolled>)
    ensures r == RollSpec(diceString, Evaluator(rng))
    ensures r.Ok? ==> r.value.grandTotal == SumTotals(r.value.results)
  {
    var components := Split(diceString, '+');
    r := RollComponents(components, rng);
  }

  /** The loop of `roll` over the `+`-separated components. */
  method RollComponents(components: seq<string>, rng: Source) returns (r: Result<Rolled>)
    ensures r == Outcome(EvaluateAll(Evaluator(rng), components, 0))
  {
    var results: seq<RollRecord> := [];
    var grandTotal := 0;
    var pos := 0;
    for i := 0 to |components|
      invariant EvaluatePieces(Evaluator(rng), components, i, 0) == Ok((results, pos))
      invariant grandTotal == SumTotals(results)
    {
      var result := ParseAndRoll(components[i], rng, pos);
      if result.Raised? {
        RaisedPrefix(Evaluator(rng), components, i + 1, |components|, 0);
        return Raised(result.error);
      }
      var record := result.value.record;
      if record.Some? {
        SumTotalsAppend(results, record.value);
        results := results + [record.value];
        grandTotal := grandTotal + record.value.total;
      } else {
        assert results + Accepted(record) == results;
      }
      pos := result.value.next;
    }
    r := Ok(Rolled(results, grandTotal));
  }
}

=== FILE: py_list.dfy ===
/** The Python list operations the dice roller applies to its rolls:
    `sum`, slicing `xs[:n]`, and `list.sort()` in either direction. */
module PyList {

  /** `sum(xs)`. */
  function Sum(xs: seq<int>): int {
    if xs == [] then 0 else xs[0] + Sum(xs[1..])
  }

  lemma {:induction false} SumAppend(a: seq<int>, b: seq<int>)
    ensures Sum(a + b) == Sum(a) + Sum(b)
  {
    if a != [] {
      assert (a + b)[1..] == a[1..] + b;
      SumAppend(a[1..], b);
    } else {
      assert a + b == b;
    }
  }

  lemma SumPair(x: int, y: int)
    ensures Sum([x, y]) == x + y
  {
    assert [x, y][1..] == [y];
    assert Sum([y]) == y + Sum([]);
  }

  /** Every element lies in `[lo, hi]`. */
  predicate Within(xs: seq<int>, lo: int, hi: int) {
    forall i :: 0 <= i < |xs| ==> lo <= xs[i] <= hi
  }

  /** The sum of `|xs|` values in `[lo, hi]` lies between `|xs| * lo` and `|xs| * hi`. */
  lemma {:induction false} SumWithin(xs: seq<int>, lo: int, hi: int)
    requires Within(xs, lo, hi)
    ensures |xs| * lo <= Sum(xs) <= |xs| * hi
  {
    if xs != [] {
      SumWithin(xs[1..], lo, hi);
      assert |xs| * lo == lo + (|xs| - 1) * lo;
      assert |xs| * hi == hi + (|xs| - 1) * hi;
    }
  }

  /** `xs[:n]`: slicing past the end keeps the whole list. */
  function Take(xs: seq<int>, n: nat): (r: seq<int>)
    ensures |r| == if n < |xs| then n else |xs|
    ensures r <= xs
  {
    if n < |xs| then xs[..n] else xs
  }

  /** `x` may come before `y` in a list sorted ascending, or descending. */
  predicate InOrder(x: int, y: int, descending: bool) {
    if descending then x >= y else x <= y
  }

  predicate Sorted(xs: seq<int>, descending: bool) {
    forall i, j :: 0 <= i < j < |xs| ==> InOrder(xs[i], xs[j], descending)
  }

  function Insert(x: int, xs: seq<int>, descending: bool): (r: seq<int>)
    requires Sorted(xs, descending)
    ensures Sorted(r, descending)
    ensures multiset(r) == multiset(xs) + multiset{x}
    ensures Sum(r) == x + Sum(xs)
  {
    if xs == [] || InOrder(x, xs[0], descending) then
      SortedInFront(x, xs, descending);
      [x] + xs
    else
      var tail := Insert(x, xs[1..], descending);
      assert xs == [xs[0]] + xs[1..];
      SortedBehind(xs, x, tail, descending);
      assert ([xs[0]] + tail)[1..] == tail;
      [xs[0]] + tail
  }

  /** A value that may come before the first of a sorted list may come
      before all of it. */
  lemma SortedInFront(x: int, xs: seq<int>, descending: bool)
    requires Sorted(xs, descending)
    requires xs == [] || InOrder(x, xs[0], descending)
    ensures Sorted([x] + xs, descending)
  {
    var r := [x] + xs;
    forall i, j | 0 <= i < j < |r|
      ensures InOrder(r[i], r[j], descending)
    {
      assert r[j] == xs[j - 1];
      if i > 0 {
        assert r[i] == xs[i - 1];
      }
    }
  }

  /** The head of a sorted list, kept in front of the rest with `x`
      inserted, stays in front: `x` could not come before it. */
  lemma SortedBehind(xs: seq<int>, x: int, tail: seq<int>, descending: bool)
    requires xs != [] && Sorted(xs, descending) && !InOrder(x, xs[0], descending)
    requires Sorted(tail, descending) && multiset(tail) == multiset(xs[1..]) + multiset{x}
    ensures Sorted([xs[0]] + tail, descending)
  {
    forall k | 0 <= k < |tail|
      ensures InOrder(xs[0], tail[k], descending)
    {
      assert tail[k] in multiset(tail);
      if tail[k] != x {
        assert tail[k] in multiset(xs[1..]);
        var j :| 0 <= j < |xs[1..]| && xs[1..][j] == tail[k];
        assert xs[j + 1] == tail[k];
      }
    }
    var r := [xs[0]] + tail;
    forall i, j | 0 <= i < j < |r|
      ensures InOrder(r[i], r[j], descending)
    {
      assert r[j] == tail[j - 1];
      if i > 0 {
        assert r[i] == tail[i - 1];
      }
    }
  }

  /** The list `xs` after `xs.sort()` (ascending) or
      `xs.sort(reverse=True)`: a sorted permutation of `xs`, with the same sum. */
  function Sort(xs: seq<int>, descending: bool): (r: seq<int>)
    ensures Sorted(r, descending)
    ensures multiset(r) == multiset(xs)
    ensures Sum(r) == Sum(xs)
  {
    if xs == [] then []
    else
      assert xs == [xs[0]] + xs[1..];
      Insert(xs[0], Sort(xs[1..], descending), descending)
  }

  /** Keeping the first `n` of the sorted rolls keeps the `n` most extreme
      ones: what is kept and what is left over together are the original
      rolls, each kept roll is at least (or at most) each left-over one, and
      keeping `n >= |xs|` keeps everything. */
  lemma KeptAreExtreme(xs: seq<int>, n: nat, descending: bool)
    ensures var sorted := Sort(xs, descending);
            var kept := Take(sorted, n);
            var rest := sorted[|kept|..];
            && multiset(kept) + multiset(rest) == multiset(xs)
            && (forall i, j :: 0 <= i < |kept| && 0 <= j < |rest| ==> InOrder(kept[i], rest[j], descending))
            && Sum(kept) + Sum(rest) == Sum(xs)
            && (n >= |xs| ==> Sum(kept) == Sum(xs))
            && (n == 0 ==> Sum(kept) == 0)
  {
    var sorted := Sort(xs, descending);
    var kept := Take(sorted, n);
    SortedSplit(sorted, |kept|, descending);
  }

  lemma SortedSplit(sorted: seq<int>, k: nat, descending: bool)
    requires Sorted(sorted, descending) && k <= |sorted|
    ensures var kept := sorted[..k];
            var rest := sorted[k..];
            && multiset(kept) + multiset(rest) == multiset(sorted)
            && (forall i, j :: 0 <= i < |kept| && 0 <= j < |rest| ==> InOrder(kept[i], rest[j], descending))
            && Sum(kept) + Sum(rest) == Sum(sorted)
  {
    var kept := sorted[..k];
    var rest := sorted[k..];
    assert sorted == kept + rest;
    SumAppend(kept, rest);
    forall i, j | 0 <= i < |kept| && 0 <= j < |rest|
      ensures InOrder(kept[i], rest[j], descending)
    {
      assert kept[i] == sorted[i] && rest[j] == sorted[k + j];
    }
  }
}

=== FILE: py_text.dfy ===
/** The pieces of Python's string handling that the dice roller and the
    character editor rely on: `str.strip`, `str.split`, `str.join`,
    `str.isdigit`, `str.lower`, `int(...)` and `str(...)` on integers, and the
    `repr` of a list of integers.  Digits are the ASCII digits `0`-`9`. */
module PyText {

  datatype Option<+T> = None | Some(value: T)

  // ---------------------------------------------------------------------
  // Whitespace and str.strip()
  // ---------------------------------------------------------------------

  /** The characters for which Python's `str.isspace()` holds. */
  predicate IsSpace(c: char) {
    || ('\t' <= c <= '\r')
    || ('\U{1C}' <= c <= '\U{1F}')
    || c == ' ' || c == '\U{85}' || c == '\U{A0}' || c == '\U{1680}'
    || ('\U{2000}' <= c <= '\U{200A}')
    || c == '\U{2028}' || c == '\U{2029}' || c == '\U{202F}' || c == '\U{205F}' || c == '\U{3000}'
  }

  predicate AllSpace(s: string) {
    forall i :: 0 <= i < |s| ==> IsSpace(s[i])
  }

  /** Number of whitespace characters at the front of `s`. */
  function LeadingSpaces(s: string): (n: nat)
    ensures n <= |s| && AllSpace(s[..n])
    ensures n < |s| ==> !IsSpace(s[n])
  {
    if s == [] || !IsSpace(s[0]) then 0 else 1 + LeadingSpaces(s[1..])
  }

  /** Number of whitespace characters at the back of `s`. */
  function TrailingSpaces(s: string): (n: nat)
    ensures n <= |s| && AllSpace(s[|s| - n..])
    ensures n < |s| ==> !IsSpace(s[|s| - 1 - n])
  {
    if s == [] || !IsSpace(s[|s| - 1]) then 0
    else
      var front := s[..|s| - 1];
      var n := TrailingSpaces(front);
      assert s[|s| - (n + 1)..] == front[|front| - n..] + [s[|s| - 1]];
      n + 1
  }

  /** `s.strip()`: `s` without its leading and trailing whitespace. */
  function Strip(s: string): (r: string)
    ensures r == [] || (!IsSpace(r[0]) && !IsSpace(r[|r| - 1]))
    ensures r == [] <==> AllSpace(s)
  {
    var t := s[LeadingSpaces(s)..];
    assert AllSpace(s) <== t == [];
    t[..|t| - TrailingSpaces(t)]
  }

  /** Text with no whitespace at either end; `Strip` returns exactly this core. */
  predicate Trimmed(t: string) {
    t == [] || (!IsSpace(t[0]) && !IsSpace(t[|t| - 1]))
  }

  lemma {:induction false} LeadingSpacesPadded(ws: string, t: string)
    requires AllSpace(ws) && (t == [] || !IsSpace(t[0]))
    ensures LeadingSpaces(ws + t) == |ws|
  {
    if ws != [] {
      assert (ws + t)[1..] == ws[1..] + t;
      LeadingSpacesPadded(ws[1..], t);
    } else {
      assert ws + t == t;
    }
  }

  lemma {:induction false} TrailingSpacesPadded(t: string, ws: string)
    requires AllSpace(ws) && (t == [] || !IsSpace(t[|t| - 1]))
    ensures TrailingSpaces(t + ws) == |ws|
  {
    if ws != [] {
      assert (t + ws)[..|t + ws| - 1] == t + ws[..|ws| - 1];
      TrailingSpacesPadded(t, ws[..|ws| - 1]);
    } else {
      assert t + ws == t;
    }
  }

  /** Stripping removes exactly the whitespace padding around a trimmed core. */
  lemma StripPadded(ws1: string, t: string, ws2: string)
    requires AllSpace(ws1) && AllSpace(ws2) && t != [] && Trimmed(t)
    ensures Strip(ws1 + t + ws2) == t
  {
    var s := ws1 + t + ws2;
    assert s == ws1 + (t + ws2);
    LeadingSpacesPadded(ws1, t + ws2);
    assert s[|ws1|..] == t + ws2;
    TrailingSpacesPadded(t, ws2);
  }

  /** Text that is already trimmed is left alone; in particular strip is idempotent. */
  lemma StripTrimmed(t: string)
    requires Trimmed(t)
    ensures Strip(t) == t
  {
    if t != [] {
      assert [] + t + [] == t;
      StripPadded([], t, []);
    }
  }

  // ---------------------------------------------------------------------
  // str.split(sep) and str.join
  // ---------------------------------------------------------------------

  /** `s.split(sep)` for a one-character separator: the pieces between the
      separators, empty pieces included, so there is always at least one. */
  function Split(s: string, sep: char): (pieces: seq<string>)
    ensures |pieces| >= 1
    ensures forall k :: 0 <= k < |pieces| ==> sep !in pieces[k]
  {
    if s == [] then [[]]
    else
      var rest := Split(s[1..], sep);
      if s[0] == sep then [[]] + rest
      else [[s[0]] + rest[0]] + rest[1..]
  }

  /** There is one piece more than there are separators. */
  lemma {:induction false} SplitCount(s: string, sep: char)
    ensures |Split(s, sep)| == multiset(s)[sep] + 1
  {
    if s != [] {
      SplitCount(s[1..], sep);
      assert s == [s[0]] + s[1..];
    }
  }

  /** The pieces of `[c] + t` given the pieces of `t`: a separator starts a
      new, empty piece, any other character joins the first piece. */
  function Prepend(c: char, sep: char, pieces: seq<string>): (r: seq<string>)
    requires |pieces| >= 1
    requires forall k :: 0 <= k < |pieces| ==> sep !in pieces[k]
    ensures |r| == |pieces| + (if c == sep then 1 else 0)
    ensures forall k :: 0 <= k < |r| ==> sep !in r[k]
  {
    if c == sep then [[]] + pieces else [[c] + pieces[0]] + pieces[1..]
  }

  /** The pieces of a non-empty text are those of its tail with its first
      character prepended. */
  lemma SplitPrepend(s: string, sep: char)
    requires s != []
    ensures Split(s, sep) == Prepend(s[0], sep, Split(s[1..], sep))
  {
  }

  /** Prepending to pieces followed by more pieces only touches the first ones. */
  lemma PrependAppend(c: char, sep: char, p: seq<string>, q: seq<string>)
    requires |p| >= 1
    requires forall k :: 0 <= k < |p| ==> sep !in p[k]
    requires forall k :: 0 <= k < |q| ==> sep !in q[k]
    ensures Prepend(c, sep, p + q) == Prepend(c, sep, p) + q
  {
    var pq := p + q;
    assert forall k :: 0 <= k < |pq| ==> sep !in pq[k];
    if c != sep {
      assert pq[0] == p[0] && pq[1..] == p[1..] + q;
    }
  }

  /** `sep.join(parts)`. */
  function Join(parts: seq<string>, sep: string): string
  {
    if |parts| == 0 then []
    else if |parts| == 1 then parts[0]
    else parts[0] + sep + Join(parts[1..], sep)
  }

  /** Joining the pieces of a split with the separator gives the text back. */
  lemma {:induction false} JoinSplit(s: string, sep: char)
    ensures Join(Split(s, sep), [sep]) == s
  {
    if s != [] {
      var rest := Split(s[1..], sep);
      JoinSplit(s[1..], sep);
      if s[0] == sep {
        JoinBehindEmpty(rest, [sep]);
      } else {
        JoinInFront(s[0], rest, [sep]);
      }
      assert s == [s[0]] + s[1..];
    }
  }

  /** Joining two non-empty runs of parts is joining each and putting the
      separator between them. */
  lemma {:induction false} JoinConcat(a: seq<string>, b: seq<string>, sep: string)
    requires |a| >= 1 && |b| >= 1
    ensures Join(a + b, sep) == Join(a, sep) + sep + Join(b, sep)
    decreases |a|
  {
    if |a| > 1 {
      JoinConcat(a[1..], b, sep);
      assert (a + b)[1..] == a[1..] + b;
    } else {
      assert (a + b)[1..] == b;
    }
  }

  /** A join whose first part is empty starts with the separator. */
  lemma JoinBehindEmpty(parts: seq<string>, sep: string)
    requires |parts| >= 1
    ensures Join([[]] + parts, sep) == sep + Join(parts, sep)
  {
    assert ([[]] + parts)[1..] == parts;
  }

  /** Putting a character in front of the first part puts it in front of the join. */
  lemma JoinInFront(c: char, parts: seq<string>, sep: string)
    requires |parts| >= 1
    ensures Join([[c] + parts[0]] + parts[1..], sep) == [c] + Join(parts, sep)
  {
    var joined := [[c] + parts[0]] + parts[1..];
    if |parts| > 1 {
      assert joined[1..] == parts[1..];
    }
  }

  /** Splitting a join of separator-free pieces gives the pieces back. */
  lemma {:induction false} SplitJoin(parts: seq<string>, sep: char)
    requires |parts| >= 1
    requires forall k :: 0 <= k < |parts| ==> sep !in parts[k]
    ensures Split(Join(parts, [sep]), sep) == parts
  {
    if |parts| == 1 {
      SplitFree(parts[0], sep);
    } else {
      SplitJoin(parts[1..], sep);
      SplitFree(parts[0], sep);
      SplitAppend(parts[0], Join(parts[1..], [sep]), sep);
      assert [parts[0]] + parts[1..] == parts;
    }
  }

  /** A text without the separator is a single piece. */
  lemma {:induction false} SplitFree(s: string, sep: char)
    requires sep !in s
    ensures Split(s, sep) == [s]
  {
    if s != [] {
      assert sep !in s[1..];
      SplitFree(s[1..], sep);
      assert [s[0]] + s[1..] == s;
    }
  }

  /** The pieces of `a + sep + b` are those of `a` followed by those of `b`. */
  lemma {:induction false} SplitAppend(a: string, b: string, sep: char)
    ensures Split(a + [sep] + b, sep) == Split(a, sep) + Split(b, sep)
  {
    var s := a + [sep] + b;
    if a == [] {
      assert s == [sep] + b && s[1..] == b;
    } else {
      assert s[0] == a[0] && s[1..] == a[1..] + [sep] + b;
      SplitAppend(a[1..], b, sep);
      SplitPrepend(s, sep);
      SplitPrepend(a, sep);
      PrependAppend(a[0], sep, Split(a[1..], sep), Split(b, sep));
    }
  }

  // ---------------------------------------------------------------------
  // Digits, int(...) and str(...)
  // ---------------------------------------------------------------------

  predicate IsDigit(c: char) {
    '0' <= c <= '9'
  }

  predicate AllDigits(s: string) {
    forall i :: 0 <= i < |s| ==> IsDigit(s[i])
  }

  /** `s.isdigit()`: non-empty and made of digits. */
  predicate IsNumeral(s: string) {
    |s| > 0 && AllDigits(s)
  }

  predicate StartsWithDigit(s: string) {
    |s| > 0 && IsDigit(s[0])
  }

  /** `int(s)` for a run of digits; leading zeros are allowed. */
  function DigitsValue(s: string): nat
    requires AllDigits(s)
  {
    if s == [] then 0
    else 10 * DigitsValue(s[..|s| - 1]) + (s[|s| - 1] as int - '0' as int)
  }

  /** A leading zero does not change the value: `int("0" + s) == int(s)`. */
  lemma {:induction false} DigitsValueLeadingZero(s: string)
    requires AllDigits(s)
    ensures AllDigits("0" + s) && DigitsValue("0" + s) == DigitsValue(s)
    decreases |s|
  {
    var z := "0" + s;
    if s != [] {
      DigitsValueLeadingZero(s[..|s| - 1]);
      assert z[..|z| - 1] == "0" + s[..|s| - 1];
      assert z[|z| - 1] == s[|s| - 1];
    }
  }

  /** Number of digits at the front of `s`: what a greedy `\d+` or `\d*` consumes. */
  function DigitPrefixLength(s: string): (n: nat)
    ensures n <= |s| && AllDigits(s[..n])
    ensures n < |s| ==> !IsDigit(s[n])
  {
    if s == [] || !IsDigit(s[0]) then 0 else 1 + DigitPrefixLength(s[1..])
  }

  /** The value of the digits at the front of `s` (0 when there are none). */
  function LeadingNumber(s: string): nat {
    DigitsValue(s[..DigitPrefixLength(s)])
  }

  function DigitChar(d: nat): (c: char)
    requires d < 10
    ensures IsDigit(c)
  {
    ('0' as int + d) as char
  }

  /** `str(n)` for a natural number: decimal digits, no leading zero. */
  function NatToString(n: nat): string {
    if n < 10 then [DigitChar(n)] else NatToString(n / 10) + [DigitChar(n % 10)]
  }

  /** `str(n)` is a numeral whose value is `n`, and it starts with `0` only
      when `n` is zero. */
  lemma {:induction false} NatToStringValue(n: nat)
    ensures var s := NatToString(n); IsNumeral(s) && DigitsValue(s) == n && (s[0] == '0' ==> n == 0)
  {
    var s := NatToString(n);
    if n >= 10 {
      var front := NatToString(n / 10);
      NatToStringValue(n / 10);
      assert s == front + [DigitChar(n % 10)];
      assert s[..|s| - 1] == front;
    }
  }

  /** The other direction of `NatToString`: a numeral without a superfluous
      leading zero is the rendering of its own value. */
  lemma {:induction false} NatToStringOfDigits(s: string)
    requires IsNumeral(s) && (s[0] == '0' ==> |s| == 1)
    ensures NatToString(DigitsValue(s)) == s
  {
    if |s| > 1 {
      var front := s[..|s| - 1];
      NatToStringOfDigits(front);
      var v := DigitsValue(front);
      var d := s[|s| - 1] as int - '0' as int;
      assert DigitsValue(s) == 10 * v + d;
      assert (10 * v + d) / 10 == v && (10 * v + d) % 10 == d;
      assert s == front + [s[|s| - 1]];
    }
  }

  /** `str(n)` for an integer. */
  function IntToString(n: int): string {
    if n < 0 then "-" + NatToString(-n) else NatToString(n)
  }

  /** `str(n)` has a minus sign exactly when `n` is negative, and digits
      for the rest. */
  lemma IntToStringShape(n: int)
    ensures var r := IntToString(n);
            && |r| >= 1 && (r[0] == '-' <==> n < 0)
            && (n >= 0 ==> IsNumeral(r))
            && (n < 0 ==> IsNumeral(r[1..]))
  {
    NatToStringValue(if n < 0 then -n else n);
    if n < 0 {
      assert IntToString(n)[1..] == NatToString(-n);
    }
  }

  /** `int(s)` on text made only of an optional sign and ASCII digits, and
      `None` on every other text.  Python's `int` also accepts surrounding
      whitespace and `_` between digits; those forms are not modelled. */
  function ParseInt(s: string): (r: Option<int>)
    ensures r.Some? <==> IsNumeral(s) || (|s| > 1 && (s[0] == '+' || s[0] == '-') && IsNumeral(s[1..]))
    ensures IsNumeral(s) ==> r == Some(DigitsValue(s))
    ensures |s| > 1 && s[0] == '+' && IsNumeral(s[1..]) ==> r == Some(DigitsValue(s[1..]))
    ensures |s| > 1 && s[0] == '-' && IsNumeral(s[1..]) ==> r == Some(-(DigitsValue(s[1..]) as int))
  {
    if |s| > 0 && (s[0] == '+' || s[0] == '-') then
      if IsNumeral(s[1..]) then
        var magnitude: int := DigitsValue(s[1..]);
        Some(if s[0] == '-' then -magnitude else magnitude)
      else None
    else if IsNumeral(s) then Some(DigitsValue(s))
    else None
  }

  /** Reading back what `str` wrote gives the same integer. */
  lemma ParseIntToString(n: int)
    ensures ParseInt(IntToString(n)) == Some(n)
  {
    var t := NatToString(if n < 0 then -n else n);
    NatToStringValue(if n < 0 then -n else n);
    if n < 0 {
      assert ("-" + t)[1..] == t;
    } else {
      assert t[0] != '+' && t[0] != '-';
    }
  }

  // ---------------------------------------------------------------------
  // str.lower()
  // ---------------------------------------------------------------------

  /** The lower case of one character: ASCII capitals and the Kelvin sign
      (which Python lowers to an ASCII `k`); every other character is kept. */
  function LowerChar(c: char): char {
    if 'A' <= c <= 'Z' then (c as int + 32) as char
    else if c == '\U{212A}' then 'k'
    else c
  }

  /** `s.lower()`. */
  function Lower(s: string): string {
    seq(|s|, i requires 0 <= i < |s| => LowerChar(s[i]))
  }

  /** `lower` keeps the length, turns ASCII capitals into the small letter
      32 code points on and the Kelvin sign into `k`, keeps every other
      character, and leaves neither kind behind. */
  lemma LowerChars(s: string)
    ensures var r := Lower(s);
            && |r| == |s|
            && (forall i :: 0 <= i < |s| && 'A' <= s[i] <= 'Z' ==> r[i] as int == s[i] as int + 32)
            && (forall i :: 0 <= i < |s| && s[i] == '\U{212A}' ==> r[i] == 'k')
            && (forall i :: 0 <= i < |s| && !('A' <= s[i] <= 'Z') && s[i] != '\U{212A}' ==> r[i] == s[i])
            && (forall i :: 0 <= i < |r| ==> !('A' <= r[i] <= 'Z') && r[i] != '\U{212A}')
  {
  }

  /** `s.replace(from, to)` for one-character `from` and `to`. */
  function ReplaceChar(s: string, from: char, to: char): (r: string)
    ensures |r| == |s|
    ensures from != to ==> from !in r
    ensures forall i :: 0 <= i < |s| && s[i] == from ==> r[i] == to
    ensures forall i :: 0 <= i < |s| && s[i] != from ==> r[i] == s[i]
  {
    seq(|s|, i requires 0 <= i < |s| => if s[i] == from then to else s[i])
  }

  /** Replacing a character that does not occur changes nothing. */
  lemma ReplaceCharAbsent(s: string, from: char, to: char)
    requires from !in s
    ensures ReplaceChar(s, from, to) == s
  {
  }

  // ---------------------------------------------------------------------
  // repr of a list of integers
  // ---------------------------------------------------------------------

  function Render(xs: seq<int>): (r: seq<string>)
    ensures |r| == |xs|
  {
    if xs == [] then [] else [IntToString(xs[0])] + Render(xs[1..])
  }

  /** `str(xs)` for a Python list of integers, e.g. `[3, 5]`. */
  function ListRepr(xs: seq<int>): string {
    "[" + Join(Render(xs), ", ") + "]"
  }

  /** `str([]) == "[]"`. */
  lemma ListReprEmpty()
    ensures ListRepr([]) == "[]"
  {
  }

  /** `str([x]) == "[x]"`. */
  lemma ListReprOne(x: int)
    ensures ListRepr([x]) == "[" + IntToString(x) + "]"
  {
  }

  /** A longer list is its first element, `", "`, and the rest of the list
      without its opening bracket; with `ListReprEmpty` and `ListReprOne`
      this fixes `str(xs)` at every length. */
  lemma ListReprCons(x: int, xs: seq<int>)
    requires xs != []
    ensures ListRepr([x] + xs) == "[" + IntToString(x) + ", " + ListRepr(xs)[1..]
  {
    assert ([x] + xs)[1..] == xs;
    var parts := Render([x] + xs);
    assert parts == [IntToString(x)] + Render(xs);
    assert parts[1..] == Render(xs);
    var tail := Join(Render(xs), ", ");
    assert ListRepr(xs)[1..] == tail + "]";
  }

  lemma ListReprPair(x: int, y: int)
    ensures ListRepr([x, y]) == "[" + IntToString(x) + ", " + IntToString(y) + "]"
  {
    assert [x, y][1..] == [y];
    var parts := [IntToString(x), IntToString(y)];
    assert Render([x, y]) == parts;
    assert parts[1..] == [IntToString(y)];
    assert Join(parts, ", ") == IntToString(x) + ", " + IntToString(y);
  }
}
